=== FILE: README.md ===
# BatchExecutionBase orchestration, modelled in Dafny

This project models the job orchestrator of Watts.Azure, `BatchExecutionBase`.
`StartBatch` first checks whether the configured job already exists.

- If it exists, the run re-attaches: it monitors the job and then cleans up.
- If it does not, the run provisions: it prepares the storage containers, uploads the application files and the input files, and executes the job.

Job execution creates the pool, the job and the tasks, then monitors them. It then saves run statistics and downloads task outputs when the settings ask for them. A `finally` block cleans up on every exit path. `StartBatch` catches whatever exception job execution throws and logs it.

Every call the orchestrator makes to the compute, storage, log or statistics services is an `Effect`. The `World` says two things:

- what data each call returns: the job list, resolver outputs, prepared input paths, upload results, created tasks and task stdout/stderr;
- which calls throw, through the oracle `fails`.

A step is a pure function from the instance (`BatchExecution`) and the `World` to a `Run`. A `Run` records three things:

- the effects attempted, in order;
- the task outputs appended to the instance's output list;
- whether the step returned normally or threw, and with which error.

`Plan.RunPlan` is an independent reference semantics. It runs a list of required or tolerated steps and stops at the first required step that throws. The lemmas show that the orchestration steps follow such plans once error-log writes are set aside. They also prove the promises the orchestrator makes about cleanup, re-attach, error propagation, statistics and output collection.

Modules, one per file except `Logging`:

- `Model` (model.dfy): entities, effects, worlds, runs.
- `Plan` (plan.dfy): reference semantics.
- `Dependencies` (dependencies.dfy): basename deduplication of application files.
- `Logging` and `TaskOutputs` (task_outputs.dfy).
- `Cleanup` (cleanup.dfy).
- `Execution` (execution.dfy): the orchestrator itself.
- `Properties` (properties.dfy): whole-run properties.

All source paths below are in the Watts.Azure repository.

## Model

| member | source | states |
|---|---|---|
| Execution.JobAlreadyExists | Watts.Azure.Common/Batch/Jobs/BatchExecutionBase.cs:363-367 | the job counts as existing exactly when its id is among the listed job ids |
| Execution.JobAlreadyExistsAsync | Watts.Azure.Common/Batch/Jobs/BatchExecutionBase.cs:363-367 | the existence check issues exactly one job listing and collects nothing; it throws exactly when the listing throws, with that error, and otherwise reports whether the configured job id is among the listed ids |
| Execution.PrepareExecutionContainerAsync | Watts.Azure.Common/Batch/Jobs/BatchExecutionBase.cs:184-195 | invalid settings throw the credentials error before any container is touched; valid settings with no executable info throw because `First()` fails. Otherwise the step returns normally exactly when neither the executable nor the input container creation throws, and then it issued exactly those two creations in that order; only container creations are ever issued |
| Properties.ContainersFollowPlan | Watts.Azure.Common/Batch/Jobs/BatchExecutionBase.cs:193-194 | with valid settings, the executable container and then the input container are created as required steps: the first creation that throws ends the step with its error |
| Execution.ResolveFrom | Watts.Azure.Common/Batch/Jobs/BatchExecutionBase.cs:422-426 | the k-th call issued is the resolver at position k, and every call before the last returned normally. The step returns normally exactly when no resolver throws, having called them all, with their outputs concatenated; otherwise it ends at the first throwing resolver with its error |
| Execution.ResolveFromFollowsPlan | Watts.Azure.Common/Batch/Jobs/BatchExecutionBase.cs:422-426 | resolution follows the plan of one required call per resolver, in resolver order: the same calls, stopping at the first that throws, with that error |
| Execution.ResolveFromAgree | Watts.Azure.Common/Batch/Jobs/BatchExecutionBase.cs:422-426 | resolution depends on the world only through the resolvers' outputs and which resolver calls throw |
| Dependencies.Concat | Watts.Azure.Common/Batch/Jobs/BatchExecutionBase.cs:424-426 | a path is in the combined list exactly when some resolver returned it |
| Dependencies.BasenameIsLastSegment | Watts.Azure.Common/Batch/Jobs/BatchExecutionBase.cs:429 | the grouping key is the text after the last backslash: a backslash-free suffix of the path, preceded by a backslash unless it is the whole path |
| Dependencies.DedupByBasenameSpec | Watts.Azure.Common/Batch/Jobs/BatchExecutionBase.cs:428-431 | grouping by basename and keeping each group's first path gives a subsequence of the input with distinct basenames and the same set of basenames. Each kept path is the first input path with its basename, and the groups come out in the order their basename first appears: the result is exactly the input filtered to the paths whose basename occurs on no earlier path. Applying the grouping again changes nothing |
| Dependencies.DedupByBasenameIsFirstOccurrences | Watts.Azure.Common/Batch/Jobs/BatchExecutionBase.cs:428-431 | the grouping equals the reference filter that keeps a path exactly when no earlier path has its basename, so group order is first-appearance order |
| Execution.UploadDependencies | Watts.Azure.Common/Batch/Jobs/BatchExecutionBase.cs:420-436 | only resolver calls and at most one upload are issued. The upload goes to the first executable container and carries the deduplicated paths. The step returns normally exactly when an executable info exists, no resolver throws and that upload does not throw, and then it returns what the upload returned |
| Properties.UploadDependenciesFollowsPlan | Watts.Azure.Common/Batch/Jobs/BatchExecutionBase.cs:420-436 | every resolver is called in order before the upload of the deduplicated files to the executable container, each a required step, so the first failure among them is rethrown |
| Properties.InputsFollowPlan | Watts.Azure.Common/Batch/Jobs/BatchExecutionBase.cs:117-118 | input preparation and then the upload of the prepared paths to the input container are required steps in that order |
| Execution.UploadInputFiles | Watts.Azure.Common/Batch/Jobs/BatchExecutionBase.cs:443-448 | the prepared paths, unchanged, are uploaded to the first input container; the step succeeds exactly when that container exists in the settings and the upload does not throw |
| Execution.SaveStatistics | Watts.Azure.Common/Batch/Jobs/BatchExecutionBase.cs:389-413 | never throws. It stores one record with the configured pool, job, node count and size, the given task count, empty metadata and kind "BatchStatistics"; anything after that store is an error-log write |
| Execution.MonitorJobUntilCompletionAsync | Watts.Azure.Common/Batch/Jobs/BatchExecutionBase.cs:369-382 | monitoring issues exactly one monitor call for the configured job and timeout and collects nothing; it throws exactly when that call throws, and otherwise yields a timed-out result exactly when the wait timed out, which is not an error |
| Logging.LogError | Watts.Azure.Common/Batch/Jobs/BatchExecutionBase.cs:454-467 | never throws and collects nothing; without a log it writes nothing, and with one it issues exactly one write of the message, whether or not the write throws |
| Cleanup.DeleteJobAsync | Watts.Azure.Common/Batch/Jobs/BatchExecutionBase.cs:149-160 | deletes the configured job; throws exactly when the deletion throws, with that error, after writing one error-log entry when a log is attached |
| Cleanup.DeletePoolAsync | Watts.Azure.Common/Batch/Jobs/BatchExecutionBase.cs:167-178 | the same for the configured pool |
| Cleanup.CleanUpIfRequired | Watts.Azure.Common/Batch/Jobs/BatchExecutionBase.cs:319-357 | with cleanup disabled, nothing is issued and the step returns normally; it never collects outputs |
| Cleanup.CleanupWithoutExecutableInfo | Watts.Azure.Common/Batch/Jobs/BatchExecutionBase.cs:319-324 | with cleanup enabled and no executable info, cleanup throws before any deletion |
| Cleanup.CleanupFollowsDeletionPlan | Watts.Azure.Common/Batch/Jobs/BatchExecutionBase.cs:319-357 | cleanup's remote calls and error are those of the four-step deletion plan: executable container, input container, job, pool |
| Cleanup.CleanupStopsAtFirstFailedDeletion | Watts.Azure.Common/Batch/Jobs/BatchExecutionBase.cs:326-356 | the deletions issued are the plan's up to and including the first that throws, and that error propagates; if none throws, all four are issued and cleanup returns |
| Cleanup.CleanupAgree | Watts.Azure.Common/Batch/Jobs/BatchExecutionBase.cs:319-357 | cleanup depends on which calls throw only through the deletions |
| Cleanup.CleanupOnlyDeletes | Watts.Azure.Common/Batch/Jobs/BatchExecutionBase.cs:319-357 | cleanup issues nothing but deletions and error-log writes |
| TaskOutputs.TryGetTaskOutput | Watts.Azure.Common/Batch/Jobs/BatchExecutionBase.cs:286-313 | stdout is fetched before stderr, stopping at the first failure. Success yields the task's display name and both line sequences. A failure yields the `Empty` sentinel when swallowing and is rethrown otherwise |
| TaskOutputs.DownloadOutput | Watts.Azure.Common/Batch/Jobs/BatchExecutionBase.cs:276-284 | outputs are appended in task order, each that task's retrieved output. The loop completes exactly when no retrieval fails, with one output per task; otherwise it stops at the first failing task, keeping the outputs before it |
| TaskOutputs.DownloadFollowsPlan | Watts.Azure.Common/Batch/Jobs/BatchExecutionBase.cs:276-284 | the loop's calls and outcome are those of one stdout-then-stderr retrieval per task, in task order, without swallowing |
| TaskOutputs.DownloadOutputAgree | Watts.Azure.Common/Batch/Jobs/BatchExecutionBase.cs:276-284 | the loop depends on which calls throw only through the retrievals |
| Execution.CatchAndLog | Watts.Azure.Common/Batch/Jobs/BatchExecutionBase.cs:120-129 | job execution's exception is logged, at most one write, and not rethrown; its calls and collected outputs are kept |
| Execution.PrepareAndUpload | Watts.Azure.Common/Batch/Jobs/BatchExecutionBase.cs:114-118 | the unguarded steps collect nothing and issue only container creations, resolver calls, input preparation and uploads. They return normally exactly when container preparation, dependency upload, input preparation and input upload each return normally |
| Properties.PrepareAndUploadFollowsPlan | Watts.Azure.Common/Batch/Jobs/BatchExecutionBase.cs:114-118 | the unguarded steps follow one plan: executable container, input container, every resolver in order, application upload, input preparation, input upload, all required; they issue its calls up to the first that throws and rethrow its error |
| Properties.BodyFollowsPlan | Watts.Azure.Common/Batch/Jobs/BatchExecutionBase.cs:214-256 | the guarded body issues pool, job, tasks and monitor as required steps, then the statistics save as a tolerated step when enabled, then the retrievals when enabled; it throws exactly the first required failure |
| Properties.BodyNeverDeletes | Watts.Azure.Common/Batch/Jobs/BatchExecutionBase.cs:214-256 | the guarded body issues no query and no deletion |
| Properties.ExecuteJobCleansUpOnEveryPath | Watts.Azure.Common/Batch/Jobs/BatchExecutionBase.cs:212-268 | job execution ends with exactly one whole cleanup, after the body's calls and log writes, none of which deletes. A cleanup error is what propagates; otherwise the body's first required failure is rethrown. Job execution collects exactly what its body collects, whichever way body and cleanup end |
| Execution.ExecuteJob | Watts.Azure.Common/Batch/Jobs/BatchExecutionBase.cs:212-268 | no contract of its own; its try/catch/finally behaviour is stated by `Properties.ExecuteJobCleansUpOnEveryPath` and `Properties.BodyFollowsPlan` |
| Properties.ProvisionPathShape | Watts.Azure.Common/Batch/Jobs/BatchExecutionBase.cs:108-130 | a new job: listing, then the unguarded steps. Their error propagates with nothing collected; if they succeed, job execution runs inside the catch and the run returns normally with its outputs |
| Execution.StartBatch | Watts.Azure.Common/Batch/Jobs/BatchExecutionBase.cs:108-137 | every run starts with the job listing, and a run that throws has appended no output. Its two paths are stated by `Properties.ProvisionPathShape`, `Properties.ReattachDoesNotProvision` and `Properties.PreExecutionFailurePropagates` |
| Properties.ReattachDoesNotProvision | Watts.Azure.Common/Batch/Jobs/BatchExecutionBase.cs:131-136 | an existing job: listing, one monitor call, then cleanup, and no creation, upload or output. A monitor failure propagates; otherwise cleanup's outcome is the run's |
| Properties.ListingFailureEndsTheRun | Watts.Azure.Common/Batch/Jobs/BatchExecutionBase.cs:110 | a failing job listing ends the run with that error and nothing else issued |
| Properties.InvalidSettingsFailBeforeAnyContainer | Watts.Azure.Common/Batch/Jobs/BatchExecutionBase.cs:108-114 | invalid settings on a new job: the run issues only the listing and throws the credentials error |
| Properties.PreExecutionFailuresEscapeWithoutCleanup | Watts.Azure.Common/Batch/Jobs/BatchExecutionBase.cs:112-118 | on the provisioning path the run throws exactly when the unguarded steps throw, and then no deletion was issued and no pool was created |
| Properties.PreExecutionFailurePropagates | Watts.Azure.Common/Batch/Jobs/BatchExecutionBase.cs:108-118 | on a new job with valid settings, a failing container creation, resolver, upload or input preparation is the run's error: the run is the listing plus the unguarded plan up to its first failing step, collecting nothing. With no failing step the whole plan is issued and the run returns normally |
| Properties.ExecuteJobErrorsAreSwallowed | Watts.Azure.Common/Batch/Jobs/BatchExecutionBase.cs:120-129 | on the provisioning path the run returns normally exactly when a pool creation was attempted, that is, when job execution was reached |
| Properties.BodyCollectsOnlyDownloads | Watts.Azure.Common/Batch/Jobs/BatchExecutionBase.cs:221-256 | the body collects only what the download loop collects. It collects nothing with downloading disabled or when the pool, job, tasks or monitor call throws, and exactly the loop's outputs and outcome once those four succeed |
| Properties.OutputsFollowTaskOrder | Watts.Azure.Common/Batch/Jobs/BatchExecutionBase.cs:276-284 | a run collects outputs only with downloading enabled, at most one per created task, each the successfully retrieved output of the task at the same position |
| Properties.OutputsOnlyAfterMonitoring | Watts.Azure.Common/Batch/Jobs/BatchExecutionBase.cs:108-137 | a run that appends any output is a new job whose unguarded steps succeeded, with downloading enabled, and whose pool, job, tasks and monitor calls all returned normally: outputs come only from the download loop |
| Properties.OutputCountMatchesTasks | Watts.Azure.Common/Batch/Jobs/BatchExecutionBase.cs:276-284 | with every call succeeding, a new job with downloading enabled collects exactly one output per created task |
| Properties.StatisticsSavedOnlyWhenEnabled | Watts.Azure.Common/Batch/Jobs/BatchExecutionBase.cs:245-250 | a run saves statistics only when enabled, and then with the configured record and the number of uploaded input files as the task count |
| Properties.StatisticsAndLoggingNeverFailTheRun | Watts.Azure.Common/Batch/Jobs/BatchExecutionBase.cs:389-413 | changing which statistics saves and log writes throw, or whether the monitor's wait times out, changes neither the run's outcome nor its outputs |
| Properties.MonitorTimeoutIsNotEscalated | Watts.Azure.Common/Batch/Jobs/BatchExecutionBase.cs:369-382 | a monitor wait that times out gives exactly the same run as one that completes |
| Execution.StartBatchOn | Watts.Azure.Common/Batch/Jobs/BatchExecutionBase.cs:29 | a run only appends to the instance's output list: the earlier outputs stay as a prefix, and the settings and log are unchanged |
| Execution.GetExecutionOutput | Watts.Azure.Common/Batch/Jobs/BatchExecutionBase.cs:139-142 | no contract of its own; what it returns after a run is stated by `Properties.ExecutionOutputAfterStartBatch` and `Properties.ExecutionOutputKeepsEarlierDownloads` |
| Properties.ExecutionOutputAfterStartBatch | Watts.Azure.Common/Batch/Jobs/BatchExecutionBase.cs:108-142 | what `GetExecutionOutput` returns after a run: the earlier list unchanged when downloading is off; with downloading on and every call succeeding on a new job, the earlier list followed by one output per created task, the i-th appended entry being the output of the i-th task |
| Properties.ExecutionOutputKeepsEarlierDownloads | Watts.Azure.Common/Batch/Jobs/BatchExecutionBase.cs:276-284 | on a new job whose unguarded steps, pool, job, tasks and monitor succeed, with downloading on, `GetExecutionOutput` afterwards is the earlier list followed by the download loop's outputs, whatever later retrievals and cleanup do: one output per task in task order, up to the first task whose retrieval throws, which gets none |

## Notes on the code's behaviour

The model follows the code as written in each case.

- **Errors inside job execution are not rethrown.** The doc comment of `ExecuteJob` (lines 206-207) promises that the created resources are torn down. `StartBatch` then catches every exception from `ExecuteJob`, logs it and returns normally (lines 120-129); the TODO at line 126 asks whether it should rethrow. This includes cleanup failures on the provisioning path. `Properties.ExecuteJobErrorsAreSwallowed` states this.
- **Failures before job execution propagate without cleanup.** Container preparation, dependency upload, input preparation and input upload run outside the `try` (lines 114-118). Their exceptions leave `StartBatch`, and no cleanup runs. `Properties.PreExecutionFailurePropagates` and `Properties.PreExecutionFailuresEscapeWithoutCleanup` state this.
- **On re-attach, a monitor failure skips cleanup.** Lines 134-135 await the monitor and then cleanup outside any `try`, so an exception from the monitor leaves `StartBatch` before cleanup. `Properties.ReattachDoesNotProvision` states this.
- **Settings are checked after the job listing.** The validity check is in `PrepareExecutionContainerAsync` (line 186), which runs after the job listing (line 110). Invalid settings therefore fail after one remote call, not before any. `Properties.InvalidSettingsFailBeforeAnyContainer` states this.
- **Failed output retrievals are not swallowed.** `TryGetTaskOutput` returns `TaskOutput.Empty` on a failure only when asked to swallow (lines 286 and 306). `DownloadOutputAsync` calls it with the default, which does not swallow (line 280). The first failed retrieval therefore aborts the loop and job execution.

## Left out

- Construction, `Initialize` and the creation of storage and blob clients (lines 42-102) are not modelled. The model starts from an instance holding its settings, whether a log is attached, and its output list.
- `Dispose` (lines 200-203) is not modelled. It releases a handle and has no orchestration behaviour.
- `Report`, the progress callback, and the console writes are left out. They are assumed never to throw and produce no effect.
- Wall-clock times, the run's duration, and the start and end times in the statistics entity are left out.
- The monitor's internals are left out: the concurrent polling loop, the mutex wait, and the arithmetic of `TimeoutInMinutes * 60 * 1000`, which may overflow. The monitor is a single call that may throw. Whether the wait completed or timed out is a value the code ignores.
- The internals of the account, storage, task-output helper and statistics table are not modelled. Each call is one effect whose data come from the `World`. Building the statistics table client and saving the entity are one effect, and both sit inside the same `try`.
- `Settings.Applications` is not modelled. The code passes it to pool creation and task submission.
- Exception messages and log texts are not modelled. Errors name the failing effect, and log entries name their cause.
- `GetExecutionOutput` returns the instance's live list (line 141), so a caller shares it: later runs append to the caller's copy and the caller can clear the instance's list. The model returns the list as a value, and this aliasing is not modelled.
- The definition of `TaskOutput.Empty` is not modelled; the constructor `Empty` stands for it and equals no real output.
- The oracle answers per effect, so two identical calls in one run behave the same. For example, the executable and input containers could have the same name. A service that throws on only one of two identical calls is not modelled.
- `Watts.Azure.Tests/IntegrationTests/AzureStorageIntegrationTests.cs` exercises blob storage, not the orchestrator, and is not modelled.
- Cleanup.CleanUpIfRequired: its own contract covers only the disabled case. With cleanup enabled, its behaviour is stated by `Cleanup.CleanupFollowsDeletionPlan`, `Cleanup.CleanupStopsAtFirstFailedDeletion` and `Cleanup.CleanupWithoutExecutableInfo`.

=== FILE: cleanup.dfy ===
/**
 Teardown after a run: deleting the job and the pool (each logging and
 rethrowing its failure), and `CleanUpIfRequired`, which deletes the two
 containers, the job and the pool in that order and stops at the first
 deletion that throws.
 */
module Cleanup {
  import opened Model
  import opened Plan
  import opened Logging

  /** Delete the configured job; a failure is logged and rethrown. */
  function DeleteJobAsync(o: BatchExecution, w: World): (r: Run<()>)
    ensures r.collected == []
    ensures r.outcome.Ok? <==> !w.fails(DeleteJob(o.settings.jobId))
    ensures r.outcome.Err? ==> r.outcome.error == EffectFailed(DeleteJob(o.settings.jobId))
    ensures r.trace == [DeleteJob(o.settings.jobId)] +
              if r.outcome.Err? && o.hasLog then [LogWrite(DeleteJobFailed(r.outcome.error))] else []
  {
    var e := DeleteJob(o.settings.jobId);
    if w.fails(e) then
      var log := LogError(o.hasLog, w, DeleteJobFailed(EffectFailed(e)));
      Run([e] + log.trace, [], Err(EffectFailed(e)))
    else Run([e], [], Ok(()))
  }

  /** Delete the configured pool; a failure is logged and rethrown. */
  function DeletePoolAsync(o: BatchExecution, w: World): (r: Run<()>)
    ensures r.collected == []
    ensures r.outcome.Ok? <==> !w.fails(DeletePool(o.settings.poolId))
    ensures r.outcome.Err? ==> r.outcome.error == EffectFailed(DeletePool(o.settings.poolId))
    ensures r.trace == [DeletePool(o.settings.poolId)] +
              if r.outcome.Err? && o.hasLog then [LogWrite(DeletePoolFailed(r.outcome.error))] else []
  {
    var e := DeletePool(o.settings.poolId);
    if w.fails(e) then
      var log := LogError(o.hasLog, w, DeletePoolFailed(EffectFailed(e)));
      Run([e] + log.trace, [], Err(EffectFailed(e)))
    else Run([e], [], Ok(()))
  }

  /** The four deletions, in the order they are issued; each one's failure ends the cleanup. */
  function DeletionPlan(s: Settings, info: ExecutableInfo): seq<Step>
  {
    [ Required(DeleteContainer(info.executableContainer)),
      Required(DeleteContainer(info.inputContainer)),
      Required(DeleteJob(s.jobId)),
      Required(DeletePool(s.poolId)) ]
  }

  /**
   When the settings ask for cleanup, delete the executable container, the
   input container, the job and the pool, rethrowing the first failure.
   */
  function CleanUpIfRequired(o: BatchExecution, w: World): (r: Run<()>)
    ensures r.collected == []
    ensures !o.settings.cleanupAfterwards ==> r.trace == [] && r.outcome == Ok(())
  {
    if !o.settings.cleanupAfterwards then Done(())
    else
      match FirstInfo(o.settings)
      case Err(e) => Abort(e)
      case Ok(info) =>
        Seq(Attempt(w, DeleteContainer(info.executableContainer), ()),
        Seq(Attempt(w, DeleteContainer(info.inputContainer), ()),
        Seq(DeleteJobAsync(o, w),
            DeletePoolAsync(o, w))))
  }

  /**
   The first container name is read before any deletion, so with cleanup
   enabled and no executable info the cleanup throws with nothing deleted.
   */
  lemma CleanupWithoutExecutableInfo(o: BatchExecution, w: World)
    requires o.settings.cleanupAfterwards && |o.settings.executableInfos| == 0
    ensures CleanUpIfRequired(o, w) == Run([], [], Err(NoExecutableInfo))
  {
  }

  /** Deleting the job and then the pool follows the last two steps of the deletion plan. */
  lemma JobAndPoolDeletionFollowsPlan(o: BatchExecution, w: World)
    ensures Follows(Seq(DeleteJobAsync(o, w), DeletePoolAsync(o, w)),
                    [Required(DeleteJob(o.settings.jobId)), Required(DeletePool(o.settings.poolId))], w.fails)
  {
    var dj := DeleteJobAsync(o, w);
    var dp := DeletePoolAsync(o, w);
    RemoteCallsOfCallAndLog(DeleteJob(o.settings.jobId), dj.trace[1..]);
    RemoteCallsOfCallAndLog(DeletePool(o.settings.poolId), dp.trace[1..]);
    FollowsSingle(dj, DeleteJob(o.settings.jobId), w.fails);
    FollowsSingle(dp, DeletePool(o.settings.poolId), w.fails);
    FollowsSeq(dj, dp, [Required(DeleteJob(o.settings.jobId))], [Required(DeletePool(o.settings.poolId))], w.fails);
  }

  /** Deleting the input container, the job and the pool follows the last three steps of the plan. */
  lemma LastThreeDeletionsFollowPlan(o: BatchExecution, w: World, info: ExecutableInfo)
    ensures Follows(Seq(Attempt(w, DeleteContainer(info.inputContainer), ()),
                        Seq(DeleteJobAsync(o, w), DeletePoolAsync(o, w))),
                    DeletionPlan(o.settings, info)[1..], w.fails)
  {
    var s2 := [Required(DeleteContainer(info.inputContainer))];
    var s34 := [Required(DeleteJob(o.settings.jobId)), Required(DeletePool(o.settings.poolId))];
    FollowsAttempt(w, DeleteContainer(info.inputContainer), ());
    JobAndPoolDeletionFollowsPlan(o, w);
    FollowsSeq(Attempt(w, DeleteContainer(info.inputContainer), ()),
               Seq(DeleteJobAsync(o, w), DeletePoolAsync(o, w)), s2, s34, w.fails);
    assert DeletionPlan(o.settings, info)[1..] == s2 + s34;
  }

  /**
   With cleanup enabled, the deletions issued and the error thrown are exactly
   those of the deletion plan.
   */
  lemma CleanupFollowsDeletionPlan(o: BatchExecution, w: World)
    requires o.settings.cleanupAfterwards && |o.settings.executableInfos| > 0
    ensures Follows(CleanUpIfRequired(o, w), DeletionPlan(o.settings, o.settings.executableInfos[0]), w.fails)
  {
    var info := o.settings.executableInfos[0];
    var plan := DeletionPlan(o.settings, info);
    var c1 := Attempt(w, DeleteContainer(info.executableContainer), ());
    var rest := Seq(Attempt(w, DeleteContainer(info.inputContainer), ()),
                    Seq(DeleteJobAsync(o, w), DeletePoolAsync(o, w)));
    FollowsAttempt(w, DeleteContainer(info.executableContainer), ());
    LastThreeDeletionsFollowPlan(o, w, info);
    FollowsSeq(c1, rest, plan[..1], plan[1..], w.fails);
    assert plan == plan[..1] + plan[1..];
  }

  /**
   Cleanup ordering and short-circuit: the deletions attempted are the plan's
   steps up to and including the first one that fails, and that failure is
   what is thrown; if none fails, all four are issued and cleanup returns.
   */
  lemma CleanupStopsAtFirstFailedDeletion(o: BatchExecution, w: World)
    requires o.settings.cleanupAfterwards && |o.settings.executableInfos| > 0
    ensures var plan := DeletionPlan(o.settings, o.settings.executableInfos[0]);
            var k := FirstFatal(plan, w.fails);
            var r := CleanUpIfRequired(o, w);
            && (k < 4 ==> RemoteCalls(r.trace) == Effects(plan)[..k + 1]
                          && r.outcome == Err(EffectFailed(plan[k].effect)))
            && (k == 4 ==> RemoteCalls(r.trace) == Effects(plan) && r.outcome == Ok(()))
  {
    var plan := DeletionPlan(o.settings, o.settings.executableInfos[0]);
    CleanupFollowsDeletionPlan(o, w);
    RunPlanStopsAtFirstFatal(plan, w.fails);
    var k := FirstFatal(plan, w.fails);
    if k < 4 {
      assert Effects(plan[..k + 1]) == Effects(plan)[..k + 1];
    }
  }

  /** Cleanup depends on which calls throw only through the deletions. */
  lemma CleanupAgree(o: BatchExecution, w: World, w': World)
    requires AgreeOn(w, w', {Delete})
    ensures CleanUpIfRequired(o, w') == CleanUpIfRequired(o, w)
  {
    if o.settings.cleanupAfterwards && |o.settings.executableInfos| > 0 {
      var info := o.settings.executableInfos[0];
      assert KindOf(DeleteContainer(info.executableContainer)) == Delete;
      assert KindOf(DeleteContainer(info.inputContainer)) == Delete;
      assert KindOf(DeleteJob(o.settings.jobId)) == Delete;
      assert KindOf(DeletePool(o.settings.poolId)) == Delete;
    }
  }

  /** Cleanup issues nothing but deletions and error-log writes. */
  lemma CleanupOnlyDeletes(o: BatchExecution, w: World)
    ensures OnlyKinds(CleanUpIfRequired(o, w).trace, {Delete, Log})
  {
    if o.settings.cleanupAfterwards && |o.settings.executableInfos| > 0 {
      var info := o.settings.executableInfos[0];
      var c1 := Attempt(w, DeleteContainer(info.executableContainer), ());
      var c2 := Attempt(w, DeleteContainer(info.inputContainer), ());
      var dj := DeleteJobAsync(o, w);
      var dp := DeletePoolAsync(o, w);
      OnlyKindsSeq(dj, dp, {Delete, Log});
      OnlyKindsSeq(c2, Seq(dj, dp), {Delete, Log});
      OnlyKindsSeq(c1, Seq(c2, Seq(dj, dp)), {Delete, Log});
    }
  }
}

=== FILE: dependencies.dfy ===
/**
 The dependency list built before upload: the paths every resolver returns,
 concatenated in resolver order, then reduced to one path per basename (the
 text after the last backslash), keeping the first path seen for each.
 */
module Dependencies {
  import opened Model

  const Separator: char := '\\'

  /**
   The last segment of `p` after splitting on backslashes: the longest suffix
   free of backslashes. A path ending in a backslash has the empty basename.
   */
  function Basename(p: Path): Path
  {
    if |p| == 0 then []
    else if p[|p| - 1] == Separator then []
    else Basename(p[..|p| - 1]) + [p[|p| - 1]]
  }

  /**
   `Basename(p)` is the text after the last backslash of `p`: a suffix of `p`
   holding no backslash, preceded in `p` by a backslash unless it is all of `p`.
   */
  lemma {:induction false} BasenameIsLastSegment(p: Path)
    ensures var b := Basename(p);
            && |b| <= |p| && b == p[|p| - |b|..]
            && Separator !in b
            && (|b| == |p| || p[|p| - |b| - 1] == Separator)
  {
    if |p| > 0 && p[|p| - 1] != Separator {
      var q := p[..|p| - 1];
      BasenameIsLastSegment(q);
      var b := Basename(p);
      assert b == Basename(q) + [p[|p| - 1]];
      assert p == q + [p[|p| - 1]];
    }
  }

  /** The resolvers' outputs concatenated in resolver order. */
  function Concat(xss: seq<seq<Path>>): (r: seq<Path>)
    ensures forall p :: p in r <==> exists i :: 0 <= i < |xss| && p in xss[i]
  {
    if |xss| == 0 then []
    else
      var rest := Concat(xss[1..]);
      assert forall i :: 1 <= i < |xss| ==> xss[i] == xss[1..][i - 1];
      xss[0] + rest
  }

  /** Keep each path whose basename is neither in `seen` nor on an earlier kept path. */
  function DedupFrom(paths: seq<Path>, seen: set<Path>): seq<Path>
  {
    if |paths| == 0 then []
    else
      var b := Basename(paths[0]);
      if b in seen then DedupFrom(paths[1..], seen)
      else [paths[0]] + DedupFrom(paths[1..], seen + {b})
  }

  /** The grouping by basename that keeps the first path of each group. */
  function DedupByBasename(paths: seq<Path>): seq<Path>
  {
    DedupFrom(paths, {})
  }

  ghost function Basenames(ps: seq<Path>): set<Path>
  {
    set p | p in ps :: Basename(p)
  }

  ghost predicate DistinctBasenames(ps: seq<Path>)
  {
    forall i, j :: 0 <= i < j < |ps| ==> Basename(ps[i]) != Basename(ps[j])
  }

  /** `a` is `b` with some elements dropped, order kept. */
  ghost predicate IsSubsequence(a: seq<Path>, b: seq<Path>)
    decreases |b|
  {
    |a| == 0 ||
    (|b| > 0 && ((a[0] == b[0] && IsSubsequence(a[1..], b[1..])) || IsSubsequence(a, b[1..])))
  }

  /** The first path of `ps` whose basename is `b`. */
  ghost function FirstWithBasename(ps: seq<Path>, b: Path): (p: Path)
    requires b in Basenames(ps)
    ensures p in ps && Basename(p) == b
  {
    if Basename(ps[0]) == b then ps[0]
    else
      assert b in Basenames(ps[1..]) by {
        var q :| q in ps && Basename(q) == b;
        assert q != ps[0];
      }
      FirstWithBasename(ps[1..], b)
  }

  lemma BasenamesCons(p: Path, ps: seq<Path>)
    ensures Basenames([p] + ps) == {Basename(p)} + Basenames(ps)
  {
    assert forall q :: q in [p] + ps <==> q == p || q in ps;
  }

  /** The kept paths appear in the input, in input order. */
  lemma {:induction false} DedupFromSubsequence(ps: seq<Path>, seen: set<Path>)
    ensures IsSubsequence(DedupFrom(ps, seen), ps)
  {
    if |ps| > 0 {
      var b := Basename(ps[0]);
      if b in seen {
        DedupFromSubsequence(ps[1..], seen);
        SubsequenceDropHead(DedupFrom(ps, seen), ps);
      } else {
        DedupFromSubsequence(ps[1..], seen + {b});
        var r := DedupFrom(ps, seen);
        assert r[1..] == DedupFrom(ps[1..], seen + {b});
      }
    }
  }

  /** The kept paths cover exactly the input basenames not in `seen`. */
  lemma {:induction false} DedupFromCovers(ps: seq<Path>, seen: set<Path>)
    ensures Basenames(DedupFrom(ps, seen)) == Basenames(ps) - seen
  {
    if |ps| == 0 {
      assert Basenames(ps) == {};
    } else {
      var b := Basename(ps[0]);
      var tail := ps[1..];
      assert ps == [ps[0]] + tail;
      BasenamesCons(ps[0], tail);
      if b in seen {
        DedupFromCovers(tail, seen);
      } else {
        DedupFromCovers(tail, seen + {b});
        BasenamesCons(ps[0], DedupFrom(tail, seen + {b}));
      }
    }
  }

  /** No two kept paths share a basename, and none has a basename in `seen`. */
  lemma {:induction false} DedupFromDistinct(ps: seq<Path>, seen: set<Path>)
    ensures DistinctBasenames(DedupFrom(ps, seen))
  {
    if |ps| > 0 {
      var b := Basename(ps[0]);
      var tail := ps[1..];
      if b in seen {
        DedupFromDistinct(tail, seen);
      } else {
        var seen' := seen + {b};
        var r' := DedupFrom(tail, seen');
        var r := [ps[0]] + r';
        DedupFromDistinct(tail, seen');
        DedupFromCovers(tail, seen');
        forall i, j | 0 <= i < j < |r|
          ensures Basename(r[i]) != Basename(r[j])
        {
          assert r[j] == r'[j - 1];
          if i == 0 {
            assert Basename(r'[j - 1]) in Basenames(r');
          } else {
            assert r[i] == r'[i - 1];
          }
        }
      }
    }
  }

  /** Each kept path is the first input path with its basename. */
  lemma {:induction false} DedupFromKeepsFirst(ps: seq<Path>, seen: set<Path>)
    ensures var r := DedupFrom(ps, seen);
            forall i :: 0 <= i < |r| ==>
              Basename(r[i]) in Basenames(ps) && r[i] == FirstWithBasename(ps, Basename(r[i]))
  {
    if |ps| > 0 {
      var b := Basename(ps[0]);
      var tail := ps[1..];
      assert ps == [ps[0]] + tail;
      BasenamesCons(ps[0], tail);
      var r := DedupFrom(ps, seen);
      if b in seen {
        DedupFromKeepsFirst(tail, seen);
        DedupFromCovers(tail, seen);
        forall i | 0 <= i < |r|
          ensures Basename(r[i]) in Basenames(ps) && r[i] == FirstWithBasename(ps, Basename(r[i]))
        {
          assert Basename(r[i]) in Basenames(r);
        }
      } else {
        var seen' := seen + {b};
        var r' := DedupFrom(tail, seen');
        DedupFromKeepsFirst(tail, seen');
        DedupFromCovers(tail, seen');
        assert r == [ps[0]] + r';
        forall i | 0 <= i < |r|
          ensures Basename(r[i]) in Basenames(ps) && r[i] == FirstWithBasename(ps, Basename(r[i]))
        {
          if i > 0 {
            assert r[i] == r'[i - 1];
            assert Basename(r'[i - 1]) in Basenames(r');
          }
        }
      }
    }
  }

  lemma {:induction false} SubsequenceDropHead(a: seq<Path>, b: seq<Path>)
    requires |b| > 0 && IsSubsequence(a, b[1..])
    ensures IsSubsequence(a, b)
  {
  }

  /** Deduplicating an already deduplicated list changes nothing. */
  lemma {:induction false} DedupFromIdempotent(ps: seq<Path>, seen: set<Path>)
    ensures DedupFrom(DedupFrom(ps, seen), seen) == DedupFrom(ps, seen)
  {
    if |ps| > 0 {
      var b := Basename(ps[0]);
      if b in seen {
        DedupFromIdempotent(ps[1..], seen);
      } else {
        var r' := DedupFrom(ps[1..], seen + {b});
        var r := [ps[0]] + r';
        assert r[1..] == r';
        DedupFromIdempotent(ps[1..], seen + {b});
      }
    }
  }

  /**
   The reference grouping: the input filtered to the paths whose basename
   occurs on no earlier path. Groups thus come out in the order their
   basename first appears.
   */
  ghost function FirstOccurrences(ps: seq<Path>): seq<Path>
    decreases |ps|
  {
    if |ps| == 0 then []
    else
      var init := ps[..|ps| - 1];
      var last := ps[|ps| - 1];
      FirstOccurrences(init) + (if Basename(last) in Basenames(init) then [] else [last])
  }

  /** Deduplicating a concatenation is deduplicating each part, the second against the first's basenames. */
  lemma {:induction false} DedupFromAppend(a: seq<Path>, b: seq<Path>, seen: set<Path>)
    ensures DedupFrom(a + b, seen) == DedupFrom(a, seen) + DedupFrom(b, seen + Basenames(a))
    decreases |a|
  {
    if |a| == 0 {
      assert a + b == b;
      assert Basenames(a) == {};
      assert seen + Basenames(a) == seen;
      assert DedupFrom(a, seen) == [];
    } else {
      var h := Basename(a[0]);
      assert (a + b)[0] == a[0];
      assert (a + b)[1..] == a[1..] + b;
      assert a == [a[0]] + a[1..];
      BasenamesCons(a[0], a[1..]);
      if h in seen {
        DedupFromAppend(a[1..], b, seen);
        assert seen + Basenames(a[1..]) == seen + Basenames(a);
      } else {
        DedupFromAppend(a[1..], b, seen + {h});
        assert seen + {h} + Basenames(a[1..]) == seen + Basenames(a);
      }
    }
  }

  /** The grouping the code performs is the reference grouping, groups in first-appearance order. */
  lemma {:induction false} DedupByBasenameIsFirstOccurrences(ps: seq<Path>)
    ensures DedupByBasename(ps) == FirstOccurrences(ps)
    decreases |ps|
  {
    if |ps| > 0 {
      var init := ps[..|ps| - 1];
      var last := ps[|ps| - 1];
      assert ps == init + [last];
      DedupByBasenameIsFirstOccurrences(init);
      DedupFromAppend(init, [last], {});
      assert {} + Basenames(init) == Basenames(init);
      assert [last][1..] == [];
    }
  }

  /**
   Upload deduplication keeps exactly one path per distinct basename, the
   first one seen, in input order; and it is idempotent.
   */
  lemma DedupByBasenameSpec(ps: seq<Path>)
    ensures var r := DedupByBasename(ps);
            && IsSubsequence(r, ps)
            && DistinctBasenames(r)
            && Basenames(r) == Basenames(ps)
            && (forall i :: 0 <= i < |r| ==> r[i] == FirstWithBasename(ps, Basename(r[i])))
            && DedupByBasename(r) == r
            && r == FirstOccurrences(ps)
  {
    DedupByBasenameIsFirstOccurrences(ps);
    DedupFromSubsequence(ps, {});
    DedupFromCovers(ps, {});
    DedupFromDistinct(ps, {});
    DedupFromKeepsFirst(ps, {});
    DedupFromIdempotent(ps, {});
  }
}

=== FILE: execution.dfy ===
/**
 The orchestrator itself: the existence check, container preparation,
 dependency and input upload, the guarded job execution, and `StartBatch`,
 which chooses between provisioning a new run and re-attaching to a job that
 already exists.
 */
module Execution {
  import opened Model
  import opened Plan
  import opened Logging
  import opened Dependencies
  import opened TaskOutputs
  import opened Cleanup

  /** Whether any listed job id equals `jobId`. */
  function JobAlreadyExists(jobIds: seq<string>, jobId: string): (r: bool)
    ensures r <==> jobId in jobIds
  {
    if |jobIds| == 0 then false
    else jobIds[0] == jobId || JobAlreadyExists(jobIds[1..], jobId)
  }

  /** List the account's jobs and report whether the configured job is among them. */
  function JobAlreadyExistsAsync(o: BatchExecution, w: World): (r: Run<bool>)
    ensures r.trace == [ListJobs] && r.collected == []
    ensures r.outcome.Err? <==> w.fails(ListJobs)
    ensures r.outcome.Err? ==> r.outcome.error == EffectFailed(ListJobs)
    ensures r.outcome.Ok? ==> (r.outcome.value <==> o.settings.jobId in w.existingJobs)
  {
    Attempt(w, ListJobs, JobAlreadyExists(w.existingJobs, o.settings.jobId))
  }

  /**
   Refuse settings that fail their validity check before touching storage,
   then create the executable and the input container if they are missing.
   */
  function PrepareExecutionContainerAsync(o: BatchExecution, w: World): (r: Run<()>)
    ensures r.collected == []
    ensures !o.settings.isValid ==> r.trace == [] && r.outcome == Err(InvalidCredentials)
    ensures o.settings.isValid && |o.settings.executableInfos| == 0 ==>
              r.trace == [] && r.outcome == Err(NoExecutableInfo)
    ensures forall e :: e in r.trace ==> e.CreateContainer?
    ensures r.outcome.Ok? <==>
              && o.settings.isValid && |o.settings.executableInfos| > 0
              && !w.fails(CreateContainer(o.settings.executableInfos[0].executableContainer))
              && !w.fails(CreateContainer(o.settings.executableInfos[0].inputContainer))
    ensures r.outcome.Ok? ==>
              r.trace == [CreateContainer(o.settings.executableInfos[0].executableContainer),
                          CreateContainer(o.settings.executableInfos[0].inputContainer)]
  {
    if !o.settings.isValid then Abort(InvalidCredentials)
    else
      match FirstInfo(o.settings)
      case Err(e) => Abort(e)
      case Ok(info) =>
        Seq(Attempt(w, CreateContainer(info.executableContainer), ()),
            Attempt(w, CreateContainer(info.inputContainer), ()))
  }

  /** Invoke the resolvers from index `i` on, in order, concatenating their outputs. */
  function ResolveFrom(w: World, i: nat): (r: Run<seq<Path>>)
    requires i <= |w.resolved|
    decreases |w.resolved| - i
    ensures r.collected == []
    ensures r.outcome.Ok? <==> forall j :: i <= j < |w.resolved| ==> !w.fails(Resolve(j))
    ensures r.outcome.Ok? ==> r.outcome.value == Concat(w.resolved[i..])
    ensures forall e :: e in r.trace ==> e.Resolve?
    ensures forall k :: 0 <= k < |r.trace| ==> r.trace[k] == Resolve(i + k)
    ensures forall k :: 0 <= k < |r.trace| - 1 ==> !w.fails(r.trace[k])
    ensures r.outcome.Ok? ==> |r.trace| == |w.resolved| - i
    ensures r.outcome.Err? ==>
              && 0 < |r.trace| <= |w.resolved| - i
              && w.fails(Resolve(i + |r.trace| - 1))
              && r.outcome.error == EffectFailed(Resolve(i + |r.trace| - 1))
  {
    if i == |w.resolved| then Done([])
    else
      var e := Resolve(i);
      if w.fails(e) then Run([e], [], Err(EffectFailed(e)))
      else
        var rest := ResolveFrom(w, i + 1);
        assert w.resolved[i..] == [w.resolved[i]] + w.resolved[i + 1..];
        assert forall k :: 1 <= k < |rest.trace| + 1 ==> ([e] + rest.trace)[k] == rest.trace[k - 1];
        Run([e] + rest.trace, [], if rest.outcome.Err? then Err(rest.outcome.error)
                                  else Ok(w.resolved[i] + rest.outcome.value))
  }

  /** The resolver calls from index `i` to `n`, each required. */
  function ResolvePlan(n: nat, i: nat): seq<Step>
    decreases n - i
  {
    if n <= i then [] else [Required(Resolve(i))] + ResolvePlan(n, i + 1)
  }

  /**
   Dependency resolution runs the resolvers in order as required steps: it
   stops at the first that throws and rethrows its error.
   */
  lemma {:induction false} ResolveFromFollowsPlan(w: World, i: nat)
    requires i <= |w.resolved|
    ensures Follows(ResolveFrom(w, i), ResolvePlan(|w.resolved|, i), w.fails)
    decreases |w.resolved| - i
  {
    var r := ResolveFrom(w, i);
    var plan := ResolvePlan(|w.resolved|, i);
    if i < |w.resolved| {
      ResolveFromFollowsPlan(w, i + 1);
      var rest := ResolveFrom(w, i + 1);
      assert plan[1..] == ResolvePlan(|w.resolved|, i + 1);
      if !w.fails(Resolve(i)) {
        assert r.trace == [Resolve(i)] + rest.trace;
        RemoteCallsUnchanged([Resolve(i)]);
        RemoteCallsAppend([Resolve(i)], rest.trace);
      } else {
        RemoteCallsUnchanged([Resolve(i)]);
      }
    }
  }

  /**
   Dependency resolution depends on the world only through the resolvers'
   outputs and which resolver calls throw.
   */
  lemma {:induction false} ResolveFromAgree(w: World, w': World, i: nat)
    requires i <= |w.resolved|
    requires w'.resolved == w.resolved
    requires forall j :: w'.fails(Resolve(j)) == w.fails(Resolve(j))
    ensures ResolveFrom(w', i) == ResolveFrom(w, i)
    decreases |w.resolved| - i
  {
    if i < |w.resolved| {
      ResolveFromAgree(w, w', i + 1);
    }
  }

  /** The application files uploaded: one per basename, the first one the resolvers produced. */
  function ApplicationPaths(w: World): seq<Path>
  {
    DedupByBasename(Concat(w.resolved))
  }

  /**
   Resolve every dependency, keep the first path per basename, and upload the
   result to the executable container.
   */
  function UploadDependencies(o: BatchExecution, w: World): (r: Run<seq<ResourceFile>>)
    ensures r.collected == []
    ensures forall e :: e in r.trace ==> e.Resolve? || e.UploadFiles?
    ensures forall e :: e in r.trace && e.UploadFiles? ==>
              |o.settings.executableInfos| > 0 &&
              e == UploadFiles(o.settings.executableInfos[0].executableContainer, ApplicationPaths(w))
    ensures r.outcome.Ok? ==>
              && |o.settings.executableInfos| > 0
              && UploadFiles(o.settings.executableInfos[0].executableContainer, ApplicationPaths(w)) in r.trace
              && r.outcome.value == w.uploaded(o.settings.executableInfos[0].executableContainer, ApplicationPaths(w))
    ensures r.outcome.Ok? <==>
              && |o.settings.executableInfos| > 0
              && (forall j :: 0 <= j < |w.resolved| ==> !w.fails(Resolve(j)))
              && !w.fails(UploadFiles(o.settings.executableInfos[0].executableContainer, ApplicationPaths(w)))
  {
    var resolved := ResolveFrom(w, 0);
    if resolved.outcome.Err? then Run(resolved.trace, [], Err(resolved.outcome.error))
    else
      assert w.resolved[0..] == w.resolved;
      var paths := DedupByBasename(resolved.outcome.value);
      match FirstInfo(o.settings)
      case Err(e) => Run(resolved.trace, [], Err(e))
      case Ok(info) =>
        Seq(resolved, Attempt(w, UploadFiles(info.executableContainer, paths),
                              w.uploaded(info.executableContainer, paths)))
  }

  /** Upload the prepared input paths, as given, to the input container. */
  function UploadInputFiles(o: BatchExecution, w: World, paths: seq<Path>): (r: Run<seq<ResourceFile>>)
    ensures r.collected == []
    ensures forall e :: e in r.trace ==>
              |o.settings.executableInfos| > 0 && e == UploadFiles(o.settings.executableInfos[0].inputContainer, paths)
    ensures r.outcome.Ok? <==>
              |o.settings.executableInfos| > 0 && !w.fails(UploadFiles(o.settings.executableInfos[0].inputContainer, paths))
    ensures r.outcome.Ok? ==> r.outcome.value == w.uploaded(o.settings.executableInfos[0].inputContainer, paths)
  {
    match FirstInfo(o.settings)
    case Err(e) => Abort(e)
    case Ok(info) => Attempt(w, UploadFiles(info.inputContainer, paths), w.uploaded(info.inputContainer, paths))
  }

  /** Monitor the job until it completes or the wait times out; a timeout is not an error. */
  function MonitorJobUntilCompletionAsync(o: BatchExecution, w: World): (r: Run<MonitorResult>)
    ensures r.trace == [Monitor(o.settings.jobId, o.settings.timeoutInMinutes)] && r.collected == []
    ensures r.outcome.Err? <==> w.fails(Monitor(o.settings.jobId, o.settings.timeoutInMinutes))
    ensures r.outcome.Err? ==> r.outcome.error == EffectFailed(Monitor(o.settings.jobId, o.settings.timeoutInMinutes))
    ensures r.outcome.Ok? ==> (r.outcome.value == TimedOut <==> w.monitorTimesOut)
  {
    Attempt(w, Monitor(o.settings.jobId, o.settings.timeoutInMinutes),
            if w.monitorTimesOut then TimedOut else Completed)
  }

  function StatisticsRecordFor(s: Settings, numberOfTasks: int): StatisticsRecord
  {
    StatisticsRecord(s.poolId, s.jobId, s.numberOfNodes, numberOfTasks, s.nodeSize, "", StatisticsKind)
  }

  /** Save the run's statistics; a failure is logged and never rethrown. */
  function SaveStatistics(o: BatchExecution, w: World, numberOfTasks: int): (r: Run<()>)
    ensures r.outcome == Ok(()) && r.collected == []
    ensures |r.trace| > 0 && r.trace[0] == StoreStatistics(StatisticsRecordFor(o.settings, numberOfTasks))
    ensures forall e :: e in r.trace[1..] ==> e.LogWrite?
  {
    var e := StoreStatistics(StatisticsRecordFor(o.settings, numberOfTasks));
    if w.fails(e) then
      var log := LogError(o.hasLog, w, StatisticsNotSaved(EffectFailed(e)));
      Run([e] + log.trace, [], Ok(()))
    else Run([e], [], Ok(()))
  }

  /** The guarded part of `ExecuteJob`: create pool, job and tasks, monitor, then statistics and outputs. */
  function ExecuteBody(o: BatchExecution, w: World, applicationFiles: seq<ResourceFile>, inputFiles: seq<ResourceFile>): Run<()>
  {
    var s := o.settings;
    var tasks := w.createdTasks(s.jobId, inputFiles);
    Seq(Attempt(w, CreatePool(s.poolId, applicationFiles), ()),
    Seq(Attempt(w, CreateJob(s.jobId, s.poolId), ()),
    Seq(Attempt(w, AddTasks(s.jobId, inputFiles), tasks),
    Seq(MonitorJobUntilCompletionAsync(o, w),
        AfterMonitoring(o, w, inputFiles, tasks)))))
  }

  /** Statistics when enabled, then the outputs of the tasks when enabled. */
  function AfterMonitoring(o: BatchExecution, w: World, inputFiles: seq<ResourceFile>, tasks: seq<CloudTask>): Run<()>
  {
    Seq(if o.settings.saveStatistics then SaveStatistics(o, w, |inputFiles|) else Done(()),
        if o.settings.shouldDownloadOutput then DownloadOutput(w, o.settings.jobId, tasks) else Done(()))
  }

  /**
   The try/catch/finally of job execution: an exception from the body is
   logged, then cleanup runs on every path, then the body's exception is
   rethrown; an exception from cleanup replaces whatever the body produced.
   */
  function ExecuteJob(o: BatchExecution, w: World, applicationFiles: seq<ResourceFile>, inputFiles: seq<ResourceFile>): Run<()>
  {
    var body := ExecuteBody(o, w, applicationFiles, inputFiles);
    var handler := if body.outcome.Err? then LogError(o.hasLog, w, JobExecutionFailed(body.outcome.error)) else Done(());
    var cleanup := CleanUpIfRequired(o, w);
    Run(body.trace + handler.trace + cleanup.trace,
        body.collected,
        if cleanup.outcome.Err? then Err(cleanup.outcome.error) else body.outcome)
  }

  /** The catch around `ExecuteJob` in `StartBatch`: its exception is logged and not rethrown. */
  function CatchAndLog(o: BatchExecution, w: World, x: Run<()>): (r: Run<()>)
    ensures r.outcome == Ok(()) && r.collected == x.collected
    ensures r.trace == x.trace + if x.outcome.Err? && o.hasLog then [LogWrite(ExecutionLoopFailed(x.outcome.error))] else []
  {
    if x.outcome.Err? then
      Run(x.trace + LogError(o.hasLog, w, ExecutionLoopFailed(x.outcome.error)).trace, x.collected, Ok(()))
    else Run(x.trace, x.collected, Ok(()))
  }

  /**
   The unguarded steps of provisioning, stopping at the first exception:
   prepare the containers, upload the dependencies, prepare the input files
   and upload them.
   */
  function PrepareAndUpload(o: BatchExecution, w: World): (r: Run<()>)
    ensures r.collected == []
    ensures r.outcome.Ok? ==>
              && |o.settings.executableInfos| > 0
              && UploadDependencies(o, w).outcome.Ok?
              && UploadInputFiles(o, w, w.preparedInputs).outcome.Ok?
    ensures forall e :: e in r.trace ==> e.CreateContainer? || e.Resolve? || e.UploadFiles? || e.PrepareFiles?
    ensures r.outcome.Ok? <==>
              && PrepareExecutionContainerAsync(o, w).outcome.Ok?
              && UploadDependencies(o, w).outcome.Ok?
              && !w.fails(PrepareFiles)
              && UploadInputFiles(o, w, w.preparedInputs).outcome.Ok?
  {
    Seq(PrepareExecutionContainerAsync(o, w),
    Seq(UploadDependencies(o, w),
    Seq(Attempt(w, PrepareFiles, w.preparedInputs),
    Seq(UploadInputFiles(o, w, w.preparedInputs), Done(())))))
  }

  /** Job execution with the application and input files the unguarded steps uploaded. */
  function ExecuteUploaded(o: BatchExecution, w: World): Run<()>
    requires PrepareAndUpload(o, w).outcome.Ok?
  {
    ExecuteJob(o, w, UploadDependencies(o, w).outcome.value, UploadInputFiles(o, w, w.preparedInputs).outcome.value)
  }

  /**
   A job that does not exist yet: the unguarded steps, then job execution,
   whose exceptions are swallowed.
   */
  function ProvisionAndExecute(o: BatchExecution, w: World): Run<()>
  {
    var pre := PrepareAndUpload(o, w);
    if pre.outcome.Err? then pre
    else Seq(pre, CatchAndLog(o, w, ExecuteUploaded(o, w)))
  }

  /** A job that already exists: monitor it, then clean up. */
  function Reattach(o: BatchExecution, w: World): Run<()>
  {
    Seq(MonitorJobUntilCompletionAsync(o, w), CleanUpIfRequired(o, w))
  }

  /**
   List the jobs, then re-attach when the configured job exists and provision
   otherwise. Every run starts with the listing, and a run that throws has
   appended no output.
   */
  function StartBatch(o: BatchExecution, w: World): (r: Run<()>)
    ensures |r.trace| > 0 && r.trace[0] == ListJobs
    ensures r.outcome.Err? ==> r.collected == []
  {
    var check := JobAlreadyExistsAsync(o, w);
    if check.outcome.Err? then Run(check.trace, [], Err(check.outcome.error))
    else if check.outcome.value then Seq(check, Reattach(o, w))
    else Seq(check, ProvisionAndExecute(o, w))
  }

  /** The instance after `StartBatch`: its output list extended, never cleared. */
  function StartBatchOn(o: BatchExecution, w: World): (o': BatchExecution)
    ensures o'.settings == o.settings && o'.hasLog == o.hasLog
    ensures |o'.taskOutputs| >= |o.taskOutputs| && o'.taskOutputs[..|o.taskOutputs|] == o.taskOutputs
  {
    o.(taskOutputs := o.taskOutputs + StartBatch(o, w).collected)
  }

  function GetExecutionOutput(o: BatchExecution): seq<TaskOutput>
  {
    o.taskOutputs
  }
}

=== FILE: model.dfy ===
/**
 The vocabulary of the batch-execution model: settings, the values the compute
 and storage services hand back, the remote effects the orchestrator issues, the
 oracle-driven world those effects run against, and the `Run` record every
 orchestration step produces (attempted effects in order, task outputs appended
 to the instance's output list, and the normal or exceptional outcome).
 */
module Model {

  type Path = string

  /** One executable unit's pair of blob containers. Only the first is ever consulted. */
  datatype ExecutableInfo = ExecutableInfo(executableContainer: string, inputContainer: string)

  /** The read-only execution settings the orchestrator is built with. */
  datatype Settings = Settings(
    poolId: string,
    jobId: string,
    numberOfNodes: int,
    nodeSize: string,
    executableInfos: seq<ExecutableInfo>,
    cleanupAfterwards: bool,
    saveStatistics: bool,
    shouldDownloadOutput: bool,
    timeoutInMinutes: int,
    isValid: bool)

  /** Handle to an uploaded blob, as returned by an upload. */
  datatype ResourceFile = ResourceFile(source: string)

  /** A submitted task, as returned when tasks are added to a job. */
  datatype CloudTask = CloudTask(id: string, displayName: string)

  /** The standard output and error of one task, or the `Empty` sentinel. */
  datatype TaskOutput =
    | TaskOutput(name: string, stdOut: seq<string>, stdErr: seq<string>)
    | Empty

  /** The statistics row saved after a run; start and end times are clock values and are not modelled. */
  datatype StatisticsRecord = StatisticsRecord(
    poolId: string,
    jobId: string,
    numberOfNodes: int,
    numberOfTasks: int,
    nodeSize: string,
    metadata: string,
    kind: string)

  const StatisticsKind := "BatchStatistics"

  /** What the monitor's bounded wait ended with; neither is an error. */
  datatype MonitorResult = Completed | TimedOut

  /** The exceptions that can leave an orchestration step. */
  datatype Error =
    | InvalidCredentials        // the settings' validity check failed
    | NoExecutableInfo          // `ExecutableInfos.First()` on an empty list
    | EffectFailed(effect: Effect)

  /** The messages the orchestrator sends to its error log. */
  datatype LogMessage =
    | ExecutionLoopFailed(cause: Error)
    | JobExecutionFailed(cause: Error)
    | DeleteJobFailed(cause: Error)
    | DeletePoolFailed(cause: Error)
    | StatisticsNotSaved(cause: Error)

  /** Every call the orchestrator makes into code outside itself. */
  datatype Effect =
    | ListJobs
    | CreateContainer(container: string)
    | Resolve(resolver: nat)
    | PrepareFiles
    | UploadFiles(container: string, paths: seq<Path>)
    | CreatePool(poolId: string, applicationFiles: seq<ResourceFile>)
    | CreateJob(jobId: string, poolId: string)
    | AddTasks(jobId: string, inputFiles: seq<ResourceFile>)
    | Monitor(jobId: string, timeoutInMinutes: int)
    | StoreStatistics(record: StatisticsRecord)
    | GetStdOut(jobId: string, task: CloudTask)
    | GetStdErr(jobId: string, task: CloudTask)
    | DeleteContainer(container: string)
    | DeleteJob(jobId: string)
    | DeletePool(poolId: string)
    | LogWrite(message: LogMessage)

  /** Coarse classification of effects, used to say what a trace may contain. */
  datatype Kind = Query | Provision | Execute | Statistics | Retrieve | Delete | Log

  function KindOf(e: Effect): Kind
  {
    match e
    case ListJobs => Query
    case Resolve(_) => Query
    case PrepareFiles => Query
    case CreateContainer(_) => Provision
    case UploadFiles(_, _) => Provision
    case CreatePool(_, _) => Provision
    case CreateJob(_, _) => Provision
    case AddTasks(_, _) => Provision
    case Monitor(_, _) => Execute
    case StoreStatistics(_) => Statistics
    case GetStdOut(_, _) => Retrieve
    case GetStdErr(_, _) => Retrieve
    case DeleteContainer(_) => Delete
    case DeleteJob(_) => Delete
    case DeletePool(_) => Delete
    case LogWrite(_) => Log
  }

  /** Every effect of `trace` is of one of the kinds `ks`. */
  ghost predicate OnlyKinds(trace: seq<Effect>, ks: set<Kind>)
  {
    forall e :: e in trace ==> KindOf(e) in ks
  }

  /**
   Everything outside the orchestrator: the data each foreign call returns and
   the oracle deciding which calls throw.
   */
  datatype World = World(
    existingJobs: seq<string>,                               // ids returned by ListJobs
    resolved: seq<seq<Path>>,                                // one entry per dependency resolver
    preparedInputs: seq<Path>,                               // what PrepareFiles returns
    uploaded: (string, seq<Path>) -> seq<ResourceFile>,      // what an upload returns
    createdTasks: (string, seq<ResourceFile>) -> seq<CloudTask>,
    stdOut: CloudTask -> seq<string>,
    stdErr: CloudTask -> seq<string>,
    monitorTimesOut: bool,
    fails: Effect -> bool)

  /**
   Two worlds that return the same data from every call and agree on which
   calls of the kinds `ks` throw; they may differ on whether the monitor's
   wait times out and on which calls of other kinds throw.
   */
  ghost predicate AgreeOn(w: World, w': World, ks: set<Kind>)
  {
    && w'.existingJobs == w.existingJobs && w'.resolved == w.resolved
    && w'.preparedInputs == w.preparedInputs && w'.uploaded == w.uploaded
    && w'.createdTasks == w.createdTasks && w'.stdOut == w.stdOut && w'.stdErr == w.stdErr
    && forall e :: KindOf(e) in ks ==> w'.fails(e) == w.fails(e)
  }

  /** The orchestrator instance: its settings, whether a log is attached, and the accumulated outputs. */
  datatype BatchExecution = BatchExecution(settings: Settings, hasLog: bool, taskOutputs: seq<TaskOutput>)

  datatype Outcome<+T> = Ok(value: T) | Err(error: Error)

  /** Effects attempted in order, task outputs appended, and how the step ended. */
  datatype Run<+T> = Run(trace: seq<Effect>, collected: seq<TaskOutput>, outcome: Outcome<T>)

  function Done<T>(v: T): Run<T>
  {
    Run([], [], Ok(v))
  }

  function Abort<T>(e: Error): Run<T>
  {
    Run([], [], Err(e))
  }

  /** Issue one effect; it throws exactly when the oracle says so, otherwise yields `v`. */
  function Attempt<T>(w: World, e: Effect, v: T): Run<T>
  {
    Run([e], [], if w.fails(e) then Err(EffectFailed(e)) else Ok(v))
  }

  /** Run `a`, then `b` unless `a` threw; `a`'s value is discarded. */
  function Seq<A, B>(a: Run<A>, b: Run<B>): Run<B>
  {
    if a.outcome.Err? then Run(a.trace, a.collected, Err(a.outcome.error))
    else Run(a.trace + b.trace, a.collected + b.collected, b.outcome)
  }

  /** The first executable info, or the exception `First()` throws on an empty list. */
  function FirstInfo(s: Settings): Outcome<ExecutableInfo>
  {
    if |s.executableInfos| == 0 then Err(NoExecutableInfo) else Ok(s.executableInfos[0])
  }
}

=== FILE: plan.dfy ===
/**
 A reference semantics for straight-line remote work: a plan is a list of
 effects, each either required (its failure is rethrown and ends the run) or
 tolerated (its failure is caught and the run goes on). The orchestration
 steps of the model are proved to follow such plans once their error-log
 writes are filtered out.
 */
module Plan {
  import opened Model

  datatype Step = Required(effect: Effect) | Tolerated(effect: Effect)

  function Effects(plan: seq<Step>): seq<Effect>
  {
    seq(|plan|, i requires 0 <= i < |plan| => plan[i].effect)
  }

  /** Attempt the steps in order, stopping at the first required step that fails. */
  function RunPlan(plan: seq<Step>, fails: Effect -> bool): Run<()>
  {
    if |plan| == 0 then Done(())
    else
      var e := plan[0].effect;
      if plan[0].Required? && fails(e) then Run([e], [], Err(EffectFailed(e)))
      else
        var rest := RunPlan(plan[1..], fails);
        Run([e] + rest.trace, [], rest.outcome)
  }

  ghost predicate Fatal(s: Step, fails: Effect -> bool)
  {
    s.Required? && fails(s.effect)
  }

  /** The index of the first fatal step, or the plan's length when none is fatal. */
  function FirstFatal(plan: seq<Step>, fails: Effect -> bool): (k: nat)
    ensures k <= |plan|
    ensures k < |plan| ==> Fatal(plan[k], fails)
    ensures forall i :: 0 <= i < k ==> !Fatal(plan[i], fails)
  {
    if |plan| == 0 then 0
    else if plan[0].Required? && fails(plan[0].effect) then 0
    else 1 + FirstFatal(plan[1..], fails)
  }

  /**
   A plan run attempts exactly the steps up to and including the first fatal
   one, and throws that step's error; with no fatal step it attempts them all
   and returns normally.
   */
  lemma {:induction false} RunPlanStopsAtFirstFatal(plan: seq<Step>, fails: Effect -> bool)
    ensures RunPlan(plan, fails).collected == []
    ensures var k := FirstFatal(plan, fails);
            k < |plan| ==>
              && RunPlan(plan, fails).trace == Effects(plan[..k + 1])
              && RunPlan(plan, fails).outcome == Err(EffectFailed(plan[k].effect))
    ensures FirstFatal(plan, fails) == |plan| ==>
              && RunPlan(plan, fails).trace == Effects(plan)
              && RunPlan(plan, fails).outcome == Ok(())
  {
    if |plan| > 0 && !Fatal(plan[0], fails) {
      RunPlanStopsAtFirstFatal(plan[1..], fails);
      var k := FirstFatal(plan, fails);
      if k < |plan| {
        assert plan[..k + 1] == [plan[0]] + plan[1..][..k];
      } else {
        assert plan == [plan[0]] + plan[1..];
      }
    }
  }

  /** Running two plans back to back is running their concatenation. */
  lemma {:induction false} RunPlanAppend(p1: seq<Step>, p2: seq<Step>, fails: Effect -> bool)
    ensures RunPlan(p1 + p2, fails) == Seq(RunPlan(p1, fails), RunPlan(p2, fails))
  {
    if |p1| == 0 {
      assert p1 + p2 == p2;
    } else {
      assert (p1 + p2)[1..] == p1[1..] + p2;
      RunPlanAppend(p1[1..], p2, fails);
    }
  }

  /** The trace with the error-log writes removed: the calls into the compute and storage services. */
  function RemoteCalls(t: seq<Effect>): seq<Effect>
  {
    if |t| == 0 then []
    else (if t[0].LogWrite? then [] else [t[0]]) + RemoteCalls(t[1..])
  }

  lemma {:induction false} RemoteCallsAppend(a: seq<Effect>, b: seq<Effect>)
    ensures RemoteCalls(a + b) == RemoteCalls(a) + RemoteCalls(b)
  {
    if |a| > 0 {
      assert (a + b)[1..] == a[1..] + b;
      RemoteCallsAppend(a[1..], b);
    } else {
      assert a + b == b;
    }
  }

  lemma {:induction false} RemoteCallsUnchanged(t: seq<Effect>)
    requires forall e :: e in t ==> !e.LogWrite?
    ensures RemoteCalls(t) == t
  {
    if |t| > 0 {
      assert t[0] in t;
      assert forall e :: e in t[1..] ==> e in t;
      RemoteCallsUnchanged(t[1..]);
    }
  }

  lemma {:induction false} RemoteCallsOfLogs(t: seq<Effect>)
    requires forall e :: e in t ==> e.LogWrite?
    ensures RemoteCalls(t) == []
  {
    if |t| > 0 {
      assert t[0] in t;
      assert forall e :: e in t[1..] ==> e in t;
      RemoteCallsOfLogs(t[1..]);
    }
  }

  /**
   `r` behaves as the plan does once its log writes are ignored: the same
   remote calls in the same order, and the same error if any.
   */
  ghost predicate Follows<T>(r: Run<T>, plan: seq<Step>, fails: Effect -> bool)
  {
    var p := RunPlan(plan, fails);
    && RemoteCalls(r.trace) == p.trace
    && (r.outcome.Err? <==> p.outcome.Err?)
    && (r.outcome.Err? ==> r.outcome.error == p.outcome.error)
  }

  /** Sequencing two steps that follow two plans follows the plans' concatenation. */
  lemma FollowsSeq<A, B>(a: Run<A>, b: Run<B>, p1: seq<Step>, p2: seq<Step>, fails: Effect -> bool)
    requires Follows(a, p1, fails) && Follows(b, p2, fails)
    ensures Follows(Seq(a, b), p1 + p2, fails)
  {
    RunPlanAppend(p1, p2, fails);
    if a.outcome.Ok? {
      RemoteCallsAppend(a.trace, b.trace);
    }
  }

  lemma FollowsSingle<T>(r: Run<T>, e: Effect, fails: Effect -> bool)
    requires RemoteCalls(r.trace) == [e]
    requires r.outcome.Err? <==> fails(e)
    requires r.outcome.Err? ==> r.outcome.error == EffectFailed(e)
    ensures Follows(r, [Required(e)], fails)
  {
    assert [Required(e)][1..] == [];
  }

  lemma FollowsAttempt<T>(w: World, e: Effect, v: T)
    requires !e.LogWrite?
    ensures Follows(Attempt(w, e, v), [Required(e)], w.fails)
  {
    RemoteCallsUnchanged([e]);
    FollowsSingle(Attempt(w, e, v), e, w.fails);
  }

  lemma RemoteCallsOfCallAndLog(e: Effect, log: seq<Effect>)
    requires !e.LogWrite? && (log == [] || (|log| == 1 && log[0].LogWrite?))
    ensures RemoteCalls([e] + log) == [e]
  {
    if log != [] {
      assert ([e] + log)[1..] == log;
      assert log[1..] == [];
    }
  }

  /** A trace drawn only from kinds other than `Log` holds no log write. */
  lemma NoLogWrites(t: seq<Effect>, ks: set<Kind>)
    requires OnlyKinds(t, ks) && Log !in ks
    ensures forall e :: e in t ==> !e.LogWrite?
  {
  }

  /** A run without log writes whose trace and outcome are the plan's follows the plan. */
  lemma FollowsWithoutLogs<T>(r: Run<T>, plan: seq<Step>, fails: Effect -> bool)
    requires forall e :: e in r.trace ==> !e.LogWrite?
    requires r.trace == RunPlan(plan, fails).trace
    requires r.outcome.Err? <==> RunPlan(plan, fails).outcome.Err?
    requires r.outcome.Err? ==> r.outcome.error == RunPlan(plan, fails).outcome.error
    ensures Follows(r, plan, fails)
  {
    RemoteCallsUnchanged(r.trace);
  }

  lemma OnlyKindsSeq<A, B>(a: Run<A>, b: Run<B>, ks: set<Kind>)
    requires OnlyKinds(a.trace, ks) && OnlyKinds(b.trace, ks)
    ensures OnlyKinds(Seq(a, b).trace, ks)
  {
  }
}

=== FILE: properties.dfy ===
/**
 What the orchestration promises, stated over whole runs: the guarded job
 body follows its plan, cleanup runs exactly once at the end of every job
 execution, a re-attach provisions nothing, failures before job execution
 escape without cleanup while failures inside it are swallowed, statistics
 and logging never fail a run, a monitor timeout changes nothing, and task
 outputs are collected in task order.
 */
module Properties {
  import opened Model
  import opened Plan
  import opened Logging
  import opened Dependencies
  import opened TaskOutputs
  import opened Cleanup
  import opened Execution

  /* ---------------------------------------------------------------------- */
  /* The job body and its plan                                               */
  /* ---------------------------------------------------------------------- */

  function TasksOf(o: BatchExecution, w: World, inputFiles: seq<ResourceFile>): seq<CloudTask>
  {
    w.createdTasks(o.settings.jobId, inputFiles)
  }

  /** Statistics, tolerated, when enabled; then the task retrievals when enabled. */
  function AfterMonitoringPlan(o: BatchExecution, w: World, inputFiles: seq<ResourceFile>): seq<Step>
  {
    (if o.settings.saveStatistics
     then [Tolerated(StoreStatistics(StatisticsRecordFor(o.settings, |inputFiles|)))] else [])
    + (if o.settings.shouldDownloadOutput
       then DownloadPlan(o.settings.jobId, TasksOf(o, w, inputFiles)) else [])
  }

  /** Monitoring, required, followed by what comes after it. */
  function MonitorOnwardPlan(o: BatchExecution, w: World, inputFiles: seq<ResourceFile>): seq<Step>
  {
    [Required(Monitor(o.settings.jobId, o.settings.timeoutInMinutes))] + AfterMonitoringPlan(o, w, inputFiles)
  }

  /** Create pool, create job, add tasks, then monitoring onward. */
  function BodyPlan(o: BatchExecution, w: World, applicationFiles: seq<ResourceFile>, inputFiles: seq<ResourceFile>): seq<Step>
  {
    var s := o.settings;
    [ Required(CreatePool(s.poolId, applicationFiles)),
      Required(CreateJob(s.jobId, s.poolId)),
      Required(AddTasks(s.jobId, inputFiles)) ]
    + MonitorOnwardPlan(o, w, inputFiles)
  }

  lemma DoneFollowsEmptyPlan(fails: Effect -> bool)
    ensures Follows(Done(()), [], fails)
  {
  }

  /** Saving statistics follows a single tolerated step: it is attempted, and its failure is not an error. */
  lemma StatisticsFollowsPlan(o: BatchExecution, w: World, numberOfTasks: int)
    ensures Follows(SaveStatistics(o, w, numberOfTasks),
                    [Tolerated(StoreStatistics(StatisticsRecordFor(o.settings, numberOfTasks)))], w.fails)
  {
    var r := SaveStatistics(o, w, numberOfTasks);
    var e := StoreStatistics(StatisticsRecordFor(o.settings, numberOfTasks));
    assert r.trace == [e] + r.trace[1..];
    RemoteCallsOfCallAndLog(e, r.trace[1..]);
    assert [Tolerated(e)][1..] == [];
  }

  lemma DownloadFollows(w: World, jobId: string, tasks: seq<CloudTask>)
    ensures Follows(DownloadOutput(w, jobId, tasks), DownloadPlan(jobId, tasks), w.fails)
  {
    var r := DownloadOutput(w, jobId, tasks);
    DownloadFollowsPlan(w, jobId, tasks);
    NoLogWrites(r.trace, {Retrieve});
    FollowsWithoutLogs(r, DownloadPlan(jobId, tasks), w.fails);
  }

  lemma AfterMonitoringFollowsPlan(o: BatchExecution, w: World, inputFiles: seq<ResourceFile>)
    ensures Follows(AfterMonitoring(o, w, inputFiles, TasksOf(o, w, inputFiles)),
                    AfterMonitoringPlan(o, w, inputFiles), w.fails)
  {
    var tasks := TasksOf(o, w, inputFiles);
    var stats := if o.settings.saveStatistics then SaveStatistics(o, w, |inputFiles|) else Done(());
    var dl := if o.settings.shouldDownloadOutput then DownloadOutput(w, o.settings.jobId, tasks) else Done(());
    var p1 := if o.settings.saveStatistics
              then [Tolerated(StoreStatistics(StatisticsRecordFor(o.settings, |inputFiles|)))] else [];
    var p2 := if o.settings.shouldDownloadOutput then DownloadPlan(o.settings.jobId, tasks) else [];
    if o.settings.saveStatistics { StatisticsFollowsPlan(o, w, |inputFiles|); } else { DoneFollowsEmptyPlan(w.fails); }
    if o.settings.shouldDownloadOutput { DownloadFollows(w, o.settings.jobId, tasks); } else { DoneFollowsEmptyPlan(w.fails); }
    FollowsSeq(stats, dl, p1, p2, w.fails);
  }

  lemma MonitorOnwardFollowsPlan(o: BatchExecution, w: World, inputFiles: seq<ResourceFile>)
    ensures Follows(Seq(MonitorJobUntilCompletionAsync(o, w), AfterMonitoring(o, w, inputFiles, TasksOf(o, w, inputFiles))),
                    MonitorOnwardPlan(o, w, inputFiles), w.fails)
  {
    FollowsAttempt(w, Monitor(o.settings.jobId, o.settings.timeoutInMinutes), if w.monitorTimesOut then TimedOut else Completed);
    AfterMonitoringFollowsPlan(o, w, inputFiles);
    FollowsSeq(MonitorJobUntilCompletionAsync(o, w), AfterMonitoring(o, w, inputFiles, TasksOf(o, w, inputFiles)),
               [Required(Monitor(o.settings.jobId, o.settings.timeoutInMinutes))], AfterMonitoringPlan(o, w, inputFiles), w.fails);
  }

  /** Three required calls in a row, then `rest`, follow the three steps followed by `rest`'s plan. */
  lemma ThreeAttemptsFollow<T, R>(w: World, e1: Effect, e2: Effect, e3: Effect, v3: T, rest: Run<R>, p: seq<Step>)
    requires !e1.LogWrite? && !e2.LogWrite? && !e3.LogWrite?
    requires Follows(rest, p, w.fails)
    ensures Follows(Seq(Attempt(w, e1, ()), Seq(Attempt(w, e2, ()), Seq(Attempt(w, e3, v3), rest))),
                    [Required(e1), Required(e2), Required(e3)] + p, w.fails)
  {
    FollowsAttempt(w, e1, ());
    FollowsAttempt(w, e2, ());
    FollowsAttempt(w, e3, v3);
    FollowsSeq(Attempt(w, e3, v3), rest, [Required(e3)], p, w.fails);
    FollowsSeq(Attempt(w, e2, ()), Seq(Attempt(w, e3, v3), rest), [Required(e2)], [Required(e3)] + p, w.fails);
    FollowsSeq(Attempt(w, e1, ()), Seq(Attempt(w, e2, ()), Seq(Attempt(w, e3, v3), rest)),
               [Required(e1)], [Required(e2)] + ([Required(e3)] + p), w.fails);
    assert [Required(e1)] + ([Required(e2)] + ([Required(e3)] + p)) == [Required(e1), Required(e2), Required(e3)] + p;
  }

  /**
   The guarded body of `ExecuteJob` issues its remote calls in plan order:
   pool, job, tasks, monitor, statistics when enabled, retrievals when
   enabled; it throws exactly the error of the first failing required step.
   */
  lemma BodyFollowsPlan(o: BatchExecution, w: World, applicationFiles: seq<ResourceFile>, inputFiles: seq<ResourceFile>)
    ensures Follows(ExecuteBody(o, w, applicationFiles, inputFiles), BodyPlan(o, w, applicationFiles, inputFiles), w.fails)
  {
    var s := o.settings;
    MonitorOnwardFollowsPlan(o, w, inputFiles);
    ThreeAttemptsFollow(w, CreatePool(s.poolId, applicationFiles), CreateJob(s.jobId, s.poolId), AddTasks(s.jobId, inputFiles),
                        TasksOf(o, w, inputFiles),
                        Seq(MonitorJobUntilCompletionAsync(o, w), AfterMonitoring(o, w, inputFiles, TasksOf(o, w, inputFiles))),
                        MonitorOnwardPlan(o, w, inputFiles));
  }

  /** Three calls in a row, then `rest`, stay within kinds that hold the three calls and `rest`'s effects. */
  lemma ThreeAttemptsKinds<T, R>(w: World, e1: Effect, e2: Effect, e3: Effect, v3: T, rest: Run<R>, ks: set<Kind>)
    requires KindOf(e1) in ks && KindOf(e2) in ks && KindOf(e3) in ks
    requires OnlyKinds(rest.trace, ks)
    ensures OnlyKinds(Seq(Attempt(w, e1, ()), Seq(Attempt(w, e2, ()), Seq(Attempt(w, e3, v3), rest))).trace, ks)
  {
    OnlyKindsSeq(Attempt(w, e3, v3), rest, ks);
    OnlyKindsSeq(Attempt(w, e2, ()), Seq(Attempt(w, e3, v3), rest), ks);
    OnlyKindsSeq(Attempt(w, e1, ()), Seq(Attempt(w, e2, ()), Seq(Attempt(w, e3, v3), rest)), ks);
  }

  /** The kinds of effect the job body may issue: no query and no deletion. */
  const BodyKinds: set<Kind> := {Provision, Execute, Statistics, Retrieve, Log}

  lemma StatisticsKinds(o: BatchExecution, w: World, numberOfTasks: int)
    ensures OnlyKinds(SaveStatistics(o, w, numberOfTasks).trace, {Statistics, Log})
  {
    var t := SaveStatistics(o, w, numberOfTasks).trace;
    forall e | e in t ensures KindOf(e) in {Statistics, Log} {
      if e != t[0] {
        var i :| 0 <= i < |t| && t[i] == e;
        assert t[i] in t[1..];
      }
    }
  }

  lemma MonitorOnwardKinds(o: BatchExecution, w: World, inputFiles: seq<ResourceFile>)
    ensures OnlyKinds(Seq(MonitorJobUntilCompletionAsync(o, w), AfterMonitoring(o, w, inputFiles, TasksOf(o, w, inputFiles))).trace,
                      BodyKinds)
  {
    var s := o.settings;
    var stats := if s.saveStatistics then SaveStatistics(o, w, |inputFiles|) else Done(());
    var dl := if s.shouldDownloadOutput then DownloadOutput(w, s.jobId, TasksOf(o, w, inputFiles)) else Done(());
    if s.saveStatistics { StatisticsKinds(o, w, |inputFiles|); }
    OnlyKindsSeq(stats, dl, BodyKinds);
    OnlyKindsSeq(MonitorJobUntilCompletionAsync(o, w), AfterMonitoring(o, w, inputFiles, TasksOf(o, w, inputFiles)), BodyKinds);
  }

  /** The body never deletes anything: it creates, monitors, saves statistics, retrieves and logs. */
  lemma BodyNeverDeletes(o: BatchExecution, w: World, applicationFiles: seq<ResourceFile>, inputFiles: seq<ResourceFile>)
    ensures OnlyKinds(ExecuteBody(o, w, applicationFiles, inputFiles).trace, BodyKinds)
  {
    var s := o.settings;
    MonitorOnwardKinds(o, w, inputFiles);
    ThreeAttemptsKinds(w, CreatePool(s.poolId, applicationFiles), CreateJob(s.jobId, s.poolId), AddTasks(s.jobId, inputFiles),
                       TasksOf(o, w, inputFiles),
                       Seq(MonitorJobUntilCompletionAsync(o, w), AfterMonitoring(o, w, inputFiles, TasksOf(o, w, inputFiles))),
                       BodyKinds);
  }

  /* ---------------------------------------------------------------------- */
  /* ExecuteJob: cleanup on every exit path                                  */
  /* ---------------------------------------------------------------------- */

  /** The log writes of the catch block: one for the body's exception when a log is attached. */
  function HandlerLog(o: BatchExecution, body: Run<()>): seq<Effect>
  {
    if body.outcome.Err? && o.hasLog then [LogWrite(JobExecutionFailed(body.outcome.error))] else []
  }

  lemma ExecuteJobTrace(o: BatchExecution, w: World, applicationFiles: seq<ResourceFile>, inputFiles: seq<ResourceFile>)
    ensures var body := ExecuteBody(o, w, applicationFiles, inputFiles);
            ExecuteJob(o, w, applicationFiles, inputFiles).trace == body.trace + HandlerLog(o, body) + CleanUpIfRequired(o, w).trace
  {
  }

  /** Splitting `pre + log + c` at `|c|` from the end gives back `c`, and the log writes add no remote call. */
  lemma FinallyIsLast(pre: seq<Effect>, log: seq<Effect>, c: seq<Effect>, ks: set<Kind>)
    requires forall e :: e in log ==> e.LogWrite?
    requires OnlyKinds(pre, ks) && Log in ks
    ensures var t := pre + log + c;
            var n := |t| - |c|;
            && n >= 0 && t[n..] == c && t[..n] == pre + log
            && OnlyKinds(t[..n], ks)
            && RemoteCalls(t[..n]) == RemoteCalls(pre)
  {
    var t := pre + log + c;
    assert t[..|pre + log|] == pre + log;
    assert t[|pre + log|..] == c;
    RemoteCallsAppend(pre, log);
    RemoteCallsOfLogs(log);
    forall e | e in pre + log ensures KindOf(e) in ks {
      if e !in pre { assert e in log; }
    }
  }

  /**
   `ExecuteJob` ends with exactly one cleanup: its trace is the body's calls
   (in plan order) and error-log writes, none of them a deletion, followed by
   the whole cleanup. A cleanup exception is what propagates; otherwise the
   body's exception is rethrown, and a body that completes returns normally.
   */
  lemma ExecuteJobCleansUpOnEveryPath(o: BatchExecution, w: World, applicationFiles: seq<ResourceFile>, inputFiles: seq<ResourceFile>)
    ensures var r := ExecuteJob(o, w, applicationFiles, inputFiles);
            var c := CleanUpIfRequired(o, w);
            var plan := RunPlan(BodyPlan(o, w, applicationFiles, inputFiles), w.fails);
            var n := |r.trace| - |c.trace|;
            && n >= 0
            && r.trace[n..] == c.trace
            && OnlyKinds(r.trace[..n], BodyKinds)
            && RemoteCalls(r.trace[..n]) == plan.trace
            && (c.outcome.Err? ==> r.outcome == c.outcome)
            && (c.outcome.Ok? ==> (r.outcome.Err? <==> plan.outcome.Err?))
            && (c.outcome.Ok? && r.outcome.Err? ==> r.outcome.error == plan.outcome.error)
            && r.collected == ExecuteBody(o, w, applicationFiles, inputFiles).collected
  {
    var body := ExecuteBody(o, w, applicationFiles, inputFiles);
    ExecuteJobTrace(o, w, applicationFiles, inputFiles);
    BodyFollowsPlan(o, w, applicationFiles, inputFiles);
    BodyNeverDeletes(o, w, applicationFiles, inputFiles);
    FinallyIsLast(body.trace, HandlerLog(o, body), CleanUpIfRequired(o, w).trace, BodyKinds);
  }

  /* ---------------------------------------------------------------------- */
  /* StartBatch                                                              */
  /* ---------------------------------------------------------------------- */

  /**
   On the provisioning path, `StartBatch` lists the jobs and runs the
   unguarded steps; an exception there propagates as is. Only if they all
   succeed is the job executed, inside a handler that logs its exception and
   returns normally.
   */
  lemma ProvisionPathShape(o: BatchExecution, w: World)
    requires !w.fails(ListJobs) && o.settings.jobId !in w.existingJobs
    ensures var r := StartBatch(o, w);
            var pre := PrepareAndUpload(o, w);
            && (pre.outcome.Err? ==>
                  r.trace == [ListJobs] + pre.trace && r.collected == [] && r.outcome == Err(pre.outcome.error))
            && (pre.outcome.Ok? ==>
                  && r.trace == [ListJobs] + pre.trace + CatchAndLog(o, w, ExecuteUploaded(o, w)).trace
                  && r.collected == ExecuteUploaded(o, w).collected
                  && r.outcome == Ok(()))
  {
  }

  /**
   Re-attach provisions nothing: when the configured job is already listed,
   `StartBatch` monitors it and then cleans up, creating no container, pool,
   job or task, uploading nothing and collecting no output.
   */
  lemma ReattachDoesNotProvision(o: BatchExecution, w: World)
    requires !w.fails(ListJobs) && o.settings.jobId in w.existingJobs
    ensures var r := StartBatch(o, w);
            var m := Monitor(o.settings.jobId, o.settings.timeoutInMinutes);
            var c := CleanUpIfRequired(o, w);
            && r.collected == []
            && OnlyKinds(r.trace, {Query, Execute, Delete, Log})
            && (w.fails(m) ==> r.trace == [ListJobs, m] && r.outcome == Err(EffectFailed(m)))
            && (!w.fails(m) ==> r.trace == [ListJobs, m] + c.trace && r.outcome == c.outcome)
  {
    CleanupOnlyDeletes(o, w);
  }

  /**
   Settings that fail their validity check make `StartBatch` throw right after
   the job listing, before any container is created and without cleanup.
   */
  lemma InvalidSettingsFailBeforeAnyContainer(o: BatchExecution, w: World)
    requires !w.fails(ListJobs) && o.settings.jobId !in w.existingJobs && !o.settings.isValid
    ensures StartBatch(o, w) == Run([ListJobs], [], Err(InvalidCredentials))
  {
    ProvisionPathShape(o, w);
  }

  /** A failed job listing ends `StartBatch` at once with that failure. */
  lemma ListingFailureEndsTheRun(o: BatchExecution, w: World)
    requires w.fails(ListJobs)
    ensures StartBatch(o, w) == Run([ListJobs], [], Err(EffectFailed(ListJobs)))
  {
  }

  /**
   Failures before job execution escape without cleanup: when `StartBatch`
   throws on the provisioning path, nothing was deleted and no pool was created.
   */
  lemma PreExecutionFailuresEscapeWithoutCleanup(o: BatchExecution, w: World)
    requires !w.fails(ListJobs) && o.settings.jobId !in w.existingJobs
    ensures StartBatch(o, w).outcome.Err? <==> PrepareAndUpload(o, w).outcome.Err?
    ensures StartBatch(o, w).outcome.Err? ==>
              forall e :: e in StartBatch(o, w).trace ==> KindOf(e) != Delete && !e.CreatePool?
  {
    ProvisionPathShape(o, w);
  }

  /**
   The plan of the unguarded steps for the first executable info: create the
   executable and the input container, run every resolver, upload the
   application files, prepare the input files and upload them, each required.
   */
  function PreparePlan(info: ExecutableInfo, w: World): seq<Step>
  {
    [Required(CreateContainer(info.executableContainer)), Required(CreateContainer(info.inputContainer))]
    + ResolvePlan(|w.resolved|, 0)
    + [ Required(UploadFiles(info.executableContainer, ApplicationPaths(w))),
        Required(PrepareFiles),
        Required(UploadFiles(info.inputContainer, w.preparedInputs)) ]
  }

  /** Valid settings create the executable container, then the input container, each a required step. */
  lemma ContainersFollowPlan(o: BatchExecution, w: World)
    requires o.settings.isValid && |o.settings.executableInfos| > 0
    ensures var info := o.settings.executableInfos[0];
            Follows(PrepareExecutionContainerAsync(o, w),
                    [Required(CreateContainer(info.executableContainer)), Required(CreateContainer(info.inputContainer))], w.fails)
  {
    var info := o.settings.executableInfos[0];
    var e1 := CreateContainer(info.executableContainer);
    var e2 := CreateContainer(info.inputContainer);
    FollowsAttempt(w, e1, ());
    FollowsAttempt(w, e2, ());
    FollowsSeq(Attempt(w, e1, ()), Attempt(w, e2, ()), [Required(e1)], [Required(e2)], w.fails);
    assert [Required(e1)] + [Required(e2)] == [Required(e1), Required(e2)];
  }

  /**
   Dependency upload runs every resolver in order, then uploads the
   deduplicated application files to the executable container; the first of
   these calls that throws is rethrown.
   */
  lemma UploadDependenciesFollowsPlan(o: BatchExecution, w: World)
    requires |o.settings.executableInfos| > 0
    ensures Follows(UploadDependencies(o, w),
                    ResolvePlan(|w.resolved|, 0)
                    + [Required(UploadFiles(o.settings.executableInfos[0].executableContainer, ApplicationPaths(w)))],
                    w.fails)
  {
    var info := o.settings.executableInfos[0];
    var e := UploadFiles(info.executableContainer, ApplicationPaths(w));
    var upload := Attempt(w, e, w.uploaded(info.executableContainer, ApplicationPaths(w)));
    ResolveFromFollowsPlan(w, 0);
    FollowsAttempt(w, e, w.uploaded(info.executableContainer, ApplicationPaths(w)));
    FollowsSeq(ResolveFrom(w, 0), upload, ResolvePlan(|w.resolved|, 0), [Required(e)], w.fails);
    assert w.resolved[0..] == w.resolved;
    assert UploadDependencies(o, w) == Seq(ResolveFrom(w, 0), upload);
  }

  /** Input preparation, then the upload of the prepared paths to the input container, each a required step. */
  lemma InputsFollowPlan(o: BatchExecution, w: World)
    requires |o.settings.executableInfos| > 0
    ensures Follows(Seq(Attempt(w, PrepareFiles, w.preparedInputs), Seq(UploadInputFiles(o, w, w.preparedInputs), Done(()))),
                    [Required(PrepareFiles), Required(UploadFiles(o.settings.executableInfos[0].inputContainer, w.preparedInputs))],
                    w.fails)
  {
    var e := UploadFiles(o.settings.executableInfos[0].inputContainer, w.preparedInputs);
    var upload := UploadInputFiles(o, w, w.preparedInputs);
    FollowsAttempt(w, PrepareFiles, w.preparedInputs);
    FollowsAttempt(w, e, w.uploaded(o.settings.executableInfos[0].inputContainer, w.preparedInputs));
    DoneFollowsEmptyPlan(w.fails);
    FollowsSeq(upload, Done(()), [Required(e)], [], w.fails);
    FollowsSeq(Attempt(w, PrepareFiles, w.preparedInputs), Seq(upload, Done(())), [Required(PrepareFiles)], [Required(e)] + [], w.fails);
    assert [Required(PrepareFiles)] + ([Required(e)] + []) == [Required(PrepareFiles), Required(e)];
  }

  /**
   The unguarded steps of provisioning follow their plan: both containers,
   every resolver, the application upload, input preparation and the input
   upload, in that order, each required, so the first that throws ends them
   with its error.
   */
  lemma PrepareAndUploadFollowsPlan(o: BatchExecution, w: World)
    requires o.settings.isValid && |o.settings.executableInfos| > 0
    ensures Follows(PrepareAndUpload(o, w), PreparePlan(o.settings.executableInfos[0], w), w.fails)
  {
    var info := o.settings.executableInfos[0];
    var p1 := [Required(CreateContainer(info.executableContainer)), Required(CreateContainer(info.inputContainer))];
    var p2 := ResolvePlan(|w.resolved|, 0) + [Required(UploadFiles(info.executableContainer, ApplicationPaths(w)))];
    var p3 := [Required(PrepareFiles), Required(UploadFiles(info.inputContainer, w.preparedInputs))];
    var inputs := Seq(Attempt(w, PrepareFiles, w.preparedInputs), Seq(UploadInputFiles(o, w, w.preparedInputs), Done(())));
    ContainersFollowPlan(o, w);
    UploadDependenciesFollowsPlan(o, w);
    InputsFollowPlan(o, w);
    FollowsSeq(UploadDependencies(o, w), inputs, p2, p3, w.fails);
    FollowsSeq(PrepareExecutionContainerAsync(o, w), Seq(UploadDependencies(o, w), inputs), p1, p2 + p3, w.fails);
    assert p1 + (p2 + p3) == PreparePlan(info, w);
  }

  /**
   A failure before job execution propagates out of `StartBatch`: on a new
   job with valid settings, the run issues the listing and then the
   unguarded plan up to its first failing step, and throws that step's error,
   with nothing collected. When no step of that plan fails, the run issues
   the whole plan and returns normally.
   */
  lemma PreExecutionFailurePropagates(o: BatchExecution, w: World)
    requires !w.fails(ListJobs) && o.settings.jobId !in w.existingJobs
    requires o.settings.isValid && |o.settings.executableInfos| > 0
    ensures var plan := PreparePlan(o.settings.executableInfos[0], w);
            var k := FirstFatal(plan, w.fails);
            var r := StartBatch(o, w);
            && (k < |plan| ==> r == Run([ListJobs] + Effects(plan[..k + 1]), [], Err(EffectFailed(plan[k].effect))))
            && (k == |plan| ==> r.outcome.Ok? && |r.trace| > |plan| && r.trace[..|plan| + 1] == [ListJobs] + Effects(plan))
  {
    var plan := PreparePlan(o.settings.executableInfos[0], w);
    var pre := PrepareAndUpload(o, w);
    var r := StartBatch(o, w);
    PrepareAndUploadFollowsPlan(o, w);
    RunPlanStopsAtFirstFatal(plan, w.fails);
    RemoteCallsUnchanged(pre.trace);
    ProvisionPathShape(o, w);
    if FirstFatal(plan, w.fails) == |plan| {
      assert |Effects(plan)| == |plan|;
      assert r.trace == [ListJobs] + pre.trace + CatchAndLog(o, w, ExecuteUploaded(o, w)).trace;
      assert r.trace[..|plan| + 1] == [ListJobs] + pre.trace;
    }
  }

  lemma ExecuteJobStartsWithPool(o: BatchExecution, w: World, applicationFiles: seq<ResourceFile>, inputFiles: seq<ResourceFile>)
    ensures var r := ExecuteJob(o, w, applicationFiles, inputFiles);
            |r.trace| > 0 && r.trace[0] == CreatePool(o.settings.poolId, applicationFiles)
  {
    ExecuteJobTrace(o, w, applicationFiles, inputFiles);
  }

  /**
   Failures inside job execution are swallowed: on the provisioning path
   `StartBatch` returns normally exactly when job execution was reached, that
   is, exactly when a pool creation was attempted.
   */
  lemma ExecuteJobErrorsAreSwallowed(o: BatchExecution, w: World)
    requires !w.fails(ListJobs) && o.settings.jobId !in w.existingJobs
    ensures StartBatch(o, w).outcome.Ok? <==> exists e :: e in StartBatch(o, w).trace && e.CreatePool?
  {
    var r := StartBatch(o, w);
    var pre := PrepareAndUpload(o, w);
    ProvisionPathShape(o, w);
    if pre.outcome.Ok? {
      var x := ExecuteUploaded(o, w);
      ExecuteJobStartsWithPool(o, w, UploadDependencies(o, w).outcome.value, UploadInputFiles(o, w, w.preparedInputs).outcome.value);
      assert r.trace[1 + |pre.trace|] == x.trace[0];
    }
  }

  /* ---------------------------------------------------------------------- */
  /* Output collection                                                       */
  /* ---------------------------------------------------------------------- */

  /**
   The body collects outputs only through the download loop: nothing when
   downloading is disabled, and once pool, job, tasks and monitoring succeed,
   exactly what the loop collects, with the loop's outcome.
   */
  lemma BodyCollectsOnlyDownloads(o: BatchExecution, w: World, applicationFiles: seq<ResourceFile>, inputFiles: seq<ResourceFile>)
    ensures var s := o.settings;
            var body := ExecuteBody(o, w, applicationFiles, inputFiles);
            var dl := DownloadOutput(w, s.jobId, TasksOf(o, w, inputFiles));
            && (!s.shouldDownloadOutput ==> body.collected == [])
            && (body.collected != [] ==> body.collected == dl.collected)
            && (body.collected != [] ==>
                  && s.shouldDownloadOutput
                  && !w.fails(CreatePool(s.poolId, applicationFiles)) && !w.fails(CreateJob(s.jobId, s.poolId))
                  && !w.fails(AddTasks(s.jobId, inputFiles)) && !w.fails(Monitor(s.jobId, s.timeoutInMinutes)))
            && (s.shouldDownloadOutput && !w.fails(CreatePool(s.poolId, applicationFiles)) && !w.fails(CreateJob(s.jobId, s.poolId))
                && !w.fails(AddTasks(s.jobId, inputFiles)) && !w.fails(Monitor(s.jobId, s.timeoutInMinutes))
                ==> body.collected == dl.collected && (body.outcome.Ok? <==> dl.outcome.Ok?))
  {
  }

  /** The tasks `StartBatch` creates on the provisioning path: those for the uploaded input files. */
  function CreatedTasks(o: BatchExecution, w: World): seq<CloudTask>
    requires |o.settings.executableInfos| > 0
  {
    TasksOf(o, w, w.uploaded(o.settings.executableInfos[0].inputContainer, w.preparedInputs))
  }

  /**
   Output collection follows task order: `StartBatch` appends outputs only
   when downloading is enabled, at most one per created task, each the output
   of the task at the same position, whose retrieval succeeded.
   */
  lemma OutputsFollowTaskOrder(o: BatchExecution, w: World)
    ensures var r := StartBatch(o, w);
            && (!o.settings.shouldDownloadOutput ==> r.collected == [])
            && (r.collected != [] ==>
                  && |o.settings.executableInfos| > 0
                  && |r.collected| <= |CreatedTasks(o, w)|
                  && forall i :: 0 <= i < |r.collected| ==>
                       && !RetrievalFails(w, o.settings.jobId, CreatedTasks(o, w)[i])
                       && r.collected[i] == OutputOf(w, CreatedTasks(o, w)[i]))
  {
    if !w.fails(ListJobs) && o.settings.jobId !in w.existingJobs {
      ProvisionPathShape(o, w);
      if PrepareAndUpload(o, w).outcome.Ok? {
        BodyCollectsOnlyDownloads(o, w, UploadDependencies(o, w).outcome.value, UploadInputFiles(o, w, w.preparedInputs).outcome.value);
      }
    } else if !w.fails(ListJobs) {
      ReattachDoesNotProvision(o, w);
    }
  }

  /**
   Outputs are appended only by the download loop, so only once it is
   reached: a run that collects anything is a new job whose unguarded steps
   succeeded, with downloading enabled, and whose pool, job, tasks and
   monitor calls all returned normally.
   */
  lemma OutputsOnlyAfterMonitoring(o: BatchExecution, w: World)
    ensures StartBatch(o, w).collected != [] ==> DownloadLoopReached(o, w)
  {
    if !w.fails(ListJobs) && o.settings.jobId !in w.existingJobs {
      ProvisionPathShape(o, w);
      if PrepareAndUpload(o, w).outcome.Ok? {
        BodyCollectsOnlyDownloads(o, w, UploadDependencies(o, w).outcome.value, UploadInputFiles(o, w, w.preparedInputs).outcome.value);
      }
    } else if !w.fails(ListJobs) {
      ReattachDoesNotProvision(o, w);
    }
  }

  /** With no call failing, the unguarded steps succeed whenever the settings are valid and name an executable info. */
  lemma PrepareAndUploadSucceeds(o: BatchExecution, w: World)
    requires forall e :: !w.fails(e)
    requires o.settings.isValid && |o.settings.executableInfos| > 0
    ensures PrepareAndUpload(o, w).outcome.Ok?
  {
    assert ResolveFrom(w, 0).outcome.Ok?;
  }

  /**
   With every call succeeding, a newly provisioned run with downloading
   enabled collects exactly one output per created task.
   */
  lemma OutputCountMatchesTasks(o: BatchExecution, w: World)
    requires forall e :: !w.fails(e)
    requires o.settings.jobId !in w.existingJobs && o.settings.isValid && |o.settings.executableInfos| > 0
    requires o.settings.shouldDownloadOutput
    ensures |StartBatch(o, w).collected| == |CreatedTasks(o, w)|
  {
    PrepareAndUploadSucceeds(o, w);
    ProvisionPathShape(o, w);
    var app := UploadDependencies(o, w).outcome.value;
    var inputs := UploadInputFiles(o, w, w.preparedInputs).outcome.value;
    BodyCollectsOnlyDownloads(o, w, app, inputs);
  }

  /**
   What the caller reads back through `GetExecutionOutput` after a run: the
   earlier list unchanged when downloading is disabled; with downloading
   enabled and every call succeeding on a new job, the earlier list followed
   by one output per created task, in task order.
   */
  lemma ExecutionOutputAfterStartBatch(o: BatchExecution, w: World)
    ensures !o.settings.shouldDownloadOutput ==> GetExecutionOutput(StartBatchOn(o, w)) == GetExecutionOutput(o)
    ensures && (forall e :: !w.fails(e))
            && o.settings.jobId !in w.existingJobs && o.settings.isValid && |o.settings.executableInfos| > 0
            && o.settings.shouldDownloadOutput
            ==>
            var before := GetExecutionOutput(o);
            var after := GetExecutionOutput(StartBatchOn(o, w));
            && |after| == |before| + |CreatedTasks(o, w)|
            && after[..|before|] == before
            && forall i :: 0 <= i < |CreatedTasks(o, w)| ==> after[|before| + i] == OutputOf(w, CreatedTasks(o, w)[i])
  {
    OutputsFollowTaskOrder(o, w);
    if && (forall e :: !w.fails(e))
       && o.settings.jobId !in w.existingJobs && o.settings.isValid && |o.settings.executableInfos| > 0
       && o.settings.shouldDownloadOutput {
      OutputCountMatchesTasks(o, w);
      AppendedInTaskOrder(GetExecutionOutput(o), StartBatch(o, w).collected, CreatedTasks(o, w), w);
    }
  }

  /**
   A new job whose unguarded steps succeed, with downloading enabled, and
   whose pool, job, tasks and monitor calls return normally: the run reaches
   the download loop.
   */
  ghost predicate DownloadLoopReached(o: BatchExecution, w: World)
  {
    var s := o.settings;
    && !w.fails(ListJobs) && s.jobId !in w.existingJobs
    && PrepareAndUpload(o, w).outcome.Ok? && s.shouldDownloadOutput
    && !w.fails(CreatePool(s.poolId, UploadDependencies(o, w).outcome.value))
    && !w.fails(CreateJob(s.jobId, s.poolId))
    && !w.fails(AddTasks(s.jobId, UploadInputFiles(o, w, w.preparedInputs).outcome.value))
    && !w.fails(Monitor(s.jobId, s.timeoutInMinutes))
  }

  /**
   Outputs appended before a failure stay in the list: on a new job whose
   unguarded steps succeed and whose pool, job, tasks and monitor succeed,
   with downloading enabled, `GetExecutionOutput` afterwards is the earlier
   list followed by what the download loop collected, whatever the later
   retrievals and cleanup do. That is one output per task, in task order, up
   to the first task whose retrieval throws.
   */
  lemma ExecutionOutputKeepsEarlierDownloads(o: BatchExecution, w: World)
    requires DownloadLoopReached(o, w)
    ensures var before := GetExecutionOutput(o);
            var after := GetExecutionOutput(StartBatchOn(o, w));
            var tasks := CreatedTasks(o, w);
            && after == before + DownloadOutput(w, o.settings.jobId, tasks).collected
            && |before| <= |after| <= |before| + |tasks|
            && (forall i :: 0 <= i < |after| - |before| ==>
                  !RetrievalFails(w, o.settings.jobId, tasks[i]) && after[|before| + i] == OutputOf(w, tasks[i]))
            && (|after| - |before| < |tasks| ==> RetrievalFails(w, o.settings.jobId, tasks[|after| - |before|]))
  {
    StartBatchCollectsDownloads(o, w);
    StartBatchOnAppends(o, w);
    AppendedDownloads(GetExecutionOutput(o), w, o.settings.jobId, CreatedTasks(o, w));
  }

  /** The list read back after a run is the earlier list followed by what the run collected. */
  lemma StartBatchOnAppends(o: BatchExecution, w: World)
    ensures GetExecutionOutput(StartBatchOn(o, w)) == GetExecutionOutput(o) + StartBatch(o, w).collected
  {
  }

  /** Under the same conditions, the run collects exactly what the download loop collects. */
  lemma StartBatchCollectsDownloads(o: BatchExecution, w: World)
    requires DownloadLoopReached(o, w)
    ensures StartBatch(o, w).collected == DownloadOutput(w, o.settings.jobId, CreatedTasks(o, w)).collected
  {
    ProvisionPathShape(o, w);
    BodyCollectsOnlyDownloads(o, w, UploadDependencies(o, w).outcome.value, UploadInputFiles(o, w, w.preparedInputs).outcome.value);
  }

  /** The download loop's outputs appended to a list: the list, then one output per task up to the first failing one. */
  lemma AppendedDownloads(before: seq<TaskOutput>, w: World, jobId: string, tasks: seq<CloudTask>)
    ensures var dl := DownloadOutput(w, jobId, tasks).collected;
            var after := before + dl;
            && |before| <= |after| <= |before| + |tasks|
            && (forall i :: 0 <= i < |after| - |before| ==>
                  !RetrievalFails(w, jobId, tasks[i]) && after[|before| + i] == OutputOf(w, tasks[i]))
            && (|after| - |before| < |tasks| ==> RetrievalFails(w, jobId, tasks[|after| - |before|]))
  {
    var dl := DownloadOutput(w, jobId, tasks).collected;
    assert forall i :: 0 <= i < |dl| ==> (before + dl)[|before| + i] == dl[i];
  }

  /** Outputs matching the tasks position by position, appended to a list, sit after it in task order. */
  lemma AppendedInTaskOrder(before: seq<TaskOutput>, collected: seq<TaskOutput>, tasks: seq<CloudTask>, w: World)
    requires |collected| == |tasks|
    requires forall i :: 0 <= i < |collected| ==> collected[i] == OutputOf(w, tasks[i])
    ensures |before + collected| == |before| + |tasks| && (before + collected)[..|before|] == before
    ensures forall i :: 0 <= i < |tasks| ==> (before + collected)[|before| + i] == OutputOf(w, tasks[i])
  {
  }

  /* ---------------------------------------------------------------------- */
  /* Which statistics are saved                                              */
  /* ---------------------------------------------------------------------- */

  /** Every statistics save in `t` stores one of the records `recs`. */
  ghost predicate StoresOnly(t: seq<Effect>, recs: set<StatisticsRecord>)
  {
    forall e :: e in t && e.StoreStatistics? ==> e.record in recs
  }

  lemma StoresOnlyAppend(a: seq<Effect>, b: seq<Effect>, recs: set<StatisticsRecord>)
    requires StoresOnly(a, recs) && StoresOnly(b, recs)
    ensures StoresOnly(a + b, recs)
  {
  }

  lemma NoStatisticsKind(t: seq<Effect>, ks: set<Kind>, recs: set<StatisticsRecord>)
    requires OnlyKinds(t, ks) && Statistics !in ks
    ensures StoresOnly(t, recs)
  {
    forall e | e in t ensures !e.StoreStatistics? {
      assert KindOf(e) in ks;
    }
  }

  /** The statistics records the body may store: the configured one, and only when enabled. */
  function StatisticsFor(o: BatchExecution, inputFiles: seq<ResourceFile>): set<StatisticsRecord>
  {
    if o.settings.saveStatistics then {StatisticsRecordFor(o.settings, |inputFiles|)} else {}
  }

  lemma SaveStatisticsStores(o: BatchExecution, w: World, numberOfTasks: int)
    ensures StoresOnly(SaveStatistics(o, w, numberOfTasks).trace, {StatisticsRecordFor(o.settings, numberOfTasks)})
  {
    var t := SaveStatistics(o, w, numberOfTasks).trace;
    forall e | e in t && e.StoreStatistics? ensures e.record in {StatisticsRecordFor(o.settings, numberOfTasks)} {
      assert e == t[0];
    }
  }

  lemma StoresOnlySeq<A, B>(a: Run<A>, b: Run<B>, recs: set<StatisticsRecord>)
    requires StoresOnly(a.trace, recs) && StoresOnly(b.trace, recs)
    ensures StoresOnly(Seq(a, b).trace, recs)
  {
  }

  lemma BodyStoresConfiguredStatistics(o: BatchExecution, w: World, applicationFiles: seq<ResourceFile>, inputFiles: seq<ResourceFile>)
    ensures StoresOnly(ExecuteBody(o, w, applicationFiles, inputFiles).trace, StatisticsFor(o, inputFiles))
  {
    var s := o.settings;
    var recs := StatisticsFor(o, inputFiles);
    var tasks := TasksOf(o, w, inputFiles);
    var stats := if s.saveStatistics then SaveStatistics(o, w, |inputFiles|) else Done(());
    var dl := if s.shouldDownloadOutput then DownloadOutput(w, s.jobId, tasks) else Done(());
    if s.saveStatistics { SaveStatisticsStores(o, w, |inputFiles|); }
    NoStatisticsKind(dl.trace, {Retrieve}, recs);
    StoresOnlySeq(stats, dl, recs);
    var m := MonitorJobUntilCompletionAsync(o, w);
    var after := AfterMonitoring(o, w, inputFiles, tasks);
    StoresOnlySeq(m, after, recs);
    var a3 := Attempt(w, AddTasks(s.jobId, inputFiles), tasks);
    StoresOnlySeq(a3, Seq(m, after), recs);
    var a2 := Attempt(w, CreateJob(s.jobId, s.poolId), ());
    StoresOnlySeq(a2, Seq(a3, Seq(m, after)), recs);
    var a1 := Attempt(w, CreatePool(s.poolId, applicationFiles), ());
    StoresOnlySeq(a1, Seq(a2, Seq(a3, Seq(m, after))), recs);
  }

  lemma ExecuteJobStoresConfiguredStatistics(o: BatchExecution, w: World, applicationFiles: seq<ResourceFile>, inputFiles: seq<ResourceFile>)
    ensures StoresOnly(CatchAndLog(o, w, ExecuteJob(o, w, applicationFiles, inputFiles)).trace, StatisticsFor(o, inputFiles))
  {
    var recs := StatisticsFor(o, inputFiles);
    var body := ExecuteBody(o, w, applicationFiles, inputFiles);
    BodyStoresConfiguredStatistics(o, w, applicationFiles, inputFiles);
    ExecuteJobTrace(o, w, applicationFiles, inputFiles);
    CleanupOnlyDeletes(o, w);
    NoStatisticsKind(CleanUpIfRequired(o, w).trace, {Delete, Log}, recs);
    StoresOnlyAppend(body.trace, HandlerLog(o, body), recs);
    StoresOnlyAppend(body.trace + HandlerLog(o, body), CleanUpIfRequired(o, w).trace, recs);
  }

  /** The statistics records a whole run may store: the configured one, counting the uploaded inputs, and only when enabled. */
  function RunStatistics(o: BatchExecution, w: World): set<StatisticsRecord>
  {
    if |o.settings.executableInfos| == 0 then {}
    else StatisticsFor(o, w.uploaded(o.settings.executableInfos[0].inputContainer, w.preparedInputs))
  }

  lemma ProvisionStoresConfiguredStatistics(o: BatchExecution, w: World)
    requires !w.fails(ListJobs) && o.settings.jobId !in w.existingJobs
    ensures StoresOnly(StartBatch(o, w).trace, RunStatistics(o, w))
  {
    ProvisionPathShape(o, w);
    var pre := PrepareAndUpload(o, w);
    var recs := RunStatistics(o, w);
    assert StoresOnly([ListJobs] + pre.trace, recs);
    if pre.outcome.Ok? {
      var inputs := UploadInputFiles(o, w, w.preparedInputs).outcome.value;
      ExecuteJobStoresConfiguredStatistics(o, w, UploadDependencies(o, w).outcome.value, inputs);
      StoresOnlyAppend([ListJobs] + pre.trace, CatchAndLog(o, w, ExecuteUploaded(o, w)).trace, recs);
    }
  }

  lemma StartBatchStoresConfiguredStatistics(o: BatchExecution, w: World)
    ensures StoresOnly(StartBatch(o, w).trace, RunStatistics(o, w))
  {
    if !w.fails(ListJobs) && o.settings.jobId !in w.existingJobs {
      ProvisionStoresConfiguredStatistics(o, w);
    } else if !w.fails(ListJobs) {
      ReattachDoesNotProvision(o, w);
      NoStatisticsKind(StartBatch(o, w).trace, {Query, Execute, Delete, Log}, RunStatistics(o, w));
    }
  }

  /**
   Statistics are saved only when enabled, and then with the configured pool,
   job, node count and size and with the number of uploaded input files as
   the task count.
   */
  lemma StatisticsSavedOnlyWhenEnabled(o: BatchExecution, w: World)
    ensures forall e :: e in StartBatch(o, w).trace && e.StoreStatistics? ==>
              && o.settings.saveStatistics
              && |o.settings.executableInfos| > 0
              && e.record == StatisticsRecordFor(o.settings, |w.uploaded(o.settings.executableInfos[0].inputContainer, w.preparedInputs)|)
  {
    StartBatchStoresConfiguredStatistics(o, w);
  }

  /* ---------------------------------------------------------------------- */
  /* Statistics, logging and timeouts never decide a run                      */
  /* ---------------------------------------------------------------------- */

  const AllKinds: set<Kind> := {Query, Provision, Execute, Statistics, Retrieve, Delete, Log}

  /** The kinds whose failure can decide a run: all but statistics and logging. */
  const DecidingKinds: set<Kind> := {Query, Provision, Execute, Retrieve, Delete}

  lemma PrepareAndUploadAgree(o: BatchExecution, w: World, w': World)
    requires AgreeOn(w, w', {Query, Provision})
    ensures PrepareAndUpload(o, w') == PrepareAndUpload(o, w)
    ensures UploadDependencies(o, w') == UploadDependencies(o, w)
    ensures UploadInputFiles(o, w', w'.preparedInputs) == UploadInputFiles(o, w, w.preparedInputs)
  {
    assert forall j :: KindOf(Resolve(j)) == Query;
    ResolveFromAgree(w, w', 0);
    assert KindOf(PrepareFiles) == Query;
    if |o.settings.executableInfos| > 0 {
      var info := o.settings.executableInfos[0];
      assert KindOf(CreateContainer(info.executableContainer)) == Provision;
      assert KindOf(CreateContainer(info.inputContainer)) == Provision;
      assert KindOf(UploadFiles(info.inputContainer, w.preparedInputs)) == Provision;
      assert KindOf(UploadFiles(info.executableContainer, ApplicationPaths(w))) == Provision;
    }
  }

  lemma AfterMonitoringAgree(o: BatchExecution, w: World, w': World, inputFiles: seq<ResourceFile>, tasks: seq<CloudTask>)
    requires AgreeOn(w, w', {Retrieve})
    ensures AfterMonitoring(o, w', inputFiles, tasks).outcome == AfterMonitoring(o, w, inputFiles, tasks).outcome
    ensures AfterMonitoring(o, w', inputFiles, tasks).collected == AfterMonitoring(o, w, inputFiles, tasks).collected
    ensures AgreeOn(w, w', AllKinds) ==> AfterMonitoring(o, w', inputFiles, tasks) == AfterMonitoring(o, w, inputFiles, tasks)
  {
    DownloadOutputAgree(w, w', o.settings.jobId, tasks);
  }

  /** Two runs that end the same way and collect the same outputs. */
  ghost predicate SameEnd<T>(r: Run<T>, r': Run<T>)
  {
    r.outcome == r'.outcome && r.collected == r'.collected
  }

  /** Sequencing keeps only whether the first step threw, not its value. */
  lemma SeqSameEnd<A, B>(a: Run<A>, a': Run<A>, b: Run<B>, b': Run<B>)
    requires a.outcome.Err? == a'.outcome.Err? && (a.outcome.Err? ==> a.outcome.error == a'.outcome.error)
    requires a.collected == a'.collected
    requires SameEnd(b, b')
    ensures SameEnd(Seq(a, b), Seq(a', b'))
  {
  }

  lemma ExecuteBodyAgree(o: BatchExecution, w: World, w': World, applicationFiles: seq<ResourceFile>, inputFiles: seq<ResourceFile>)
    requires AgreeOn(w, w', {Provision, Execute, Retrieve})
    ensures SameEnd(ExecuteBody(o, w', applicationFiles, inputFiles), ExecuteBody(o, w, applicationFiles, inputFiles))
  {
    var s := o.settings;
    var tasks := TasksOf(o, w, inputFiles);
    var e1, e2, e3, e4 := CreatePool(s.poolId, applicationFiles), CreateJob(s.jobId, s.poolId), AddTasks(s.jobId, inputFiles), Monitor(s.jobId, s.timeoutInMinutes);
    assert KindOf(e1) == Provision && KindOf(e2) == Provision && KindOf(e3) == Provision && KindOf(e4) == Execute;
    var after, after' := AfterMonitoring(o, w, inputFiles, tasks), AfterMonitoring(o, w', inputFiles, tasks);
    AfterMonitoringAgree(o, w, w', inputFiles, tasks);
    SeqSameEnd(MonitorJobUntilCompletionAsync(o, w'), MonitorJobUntilCompletionAsync(o, w), after', after);
    var m, m' := Seq(MonitorJobUntilCompletionAsync(o, w), after), Seq(MonitorJobUntilCompletionAsync(o, w'), after');
    SeqSameEnd(Attempt(w', e3, tasks), Attempt(w, e3, tasks), m', m);
    SeqSameEnd(Attempt(w', e2, ()), Attempt(w, e2, ()), Seq(Attempt(w', e3, tasks), m'), Seq(Attempt(w, e3, tasks), m));
    SeqSameEnd(Attempt(w', e1, ()), Attempt(w, e1, ()),
               Seq(Attempt(w', e2, ()), Seq(Attempt(w', e3, tasks), m')), Seq(Attempt(w, e2, ()), Seq(Attempt(w, e3, tasks), m)));
  }

  /** Only the monitor's value can tell two fully agreeing worlds apart, and the body discards it. */
  lemma ExecuteBodyIgnoresMonitorResult(o: BatchExecution, w: World, w': World, applicationFiles: seq<ResourceFile>, inputFiles: seq<ResourceFile>)
    requires AgreeOn(w, w', AllKinds)
    ensures ExecuteBody(o, w', applicationFiles, inputFiles) == ExecuteBody(o, w, applicationFiles, inputFiles)
  {
    var s := o.settings;
    var tasks := TasksOf(o, w, inputFiles);
    assert KindOf(CreatePool(s.poolId, applicationFiles)) == Provision;
    assert KindOf(CreateJob(s.jobId, s.poolId)) == Provision;
    assert KindOf(AddTasks(s.jobId, inputFiles)) == Provision;
    assert KindOf(Monitor(s.jobId, s.timeoutInMinutes)) == Execute;
    AfterMonitoringAgree(o, w, w', inputFiles, tasks);
  }

  lemma ExecuteJobAgree(o: BatchExecution, w: World, w': World, applicationFiles: seq<ResourceFile>, inputFiles: seq<ResourceFile>)
    requires AgreeOn(w, w', DecidingKinds)
    ensures ExecuteJob(o, w', applicationFiles, inputFiles).outcome == ExecuteJob(o, w, applicationFiles, inputFiles).outcome
    ensures ExecuteJob(o, w', applicationFiles, inputFiles).collected == ExecuteJob(o, w, applicationFiles, inputFiles).collected
    ensures AgreeOn(w, w', AllKinds) ==>
              ExecuteJob(o, w', applicationFiles, inputFiles) == ExecuteJob(o, w, applicationFiles, inputFiles)
  {
    ExecuteBodyAgree(o, w, w', applicationFiles, inputFiles);
    if AgreeOn(w, w', AllKinds) {
      ExecuteBodyIgnoresMonitorResult(o, w, w', applicationFiles, inputFiles);
    }
    CleanupAgree(o, w, w');
  }

  /**
   Statistics, logging and the monitor's timeout never decide a run: two
   worlds that agree on everything except which statistics saves and log
   writes throw, and whether the monitor's wait times out, give `StartBatch`
   the same outcome and the same collected outputs.
   */
  lemma StatisticsAndLoggingNeverFailTheRun(o: BatchExecution, w: World, w': World)
    requires AgreeOn(w, w', DecidingKinds)
    ensures StartBatch(o, w').outcome == StartBatch(o, w).outcome
    ensures StartBatch(o, w').collected == StartBatch(o, w).collected
  {
    assert KindOf(ListJobs) == Query;
    assert KindOf(Monitor(o.settings.jobId, o.settings.timeoutInMinutes)) == Execute;
    CleanupAgree(o, w, w');
    if !w.fails(ListJobs) && o.settings.jobId !in w.existingJobs {
      ProvisionPathShape(o, w);
      ProvisionPathShape(o, w');
      PrepareAndUploadAgree(o, w, w');
      if PrepareAndUpload(o, w).outcome.Ok? {
        ExecuteJobAgree(o, w, w', UploadDependencies(o, w).outcome.value, UploadInputFiles(o, w, w.preparedInputs).outcome.value);
      }
    }
  }

  /** Provisioning and execution cannot tell two worlds apart that differ only in the monitor's result. */
  lemma ProvisionAndExecuteIgnoresMonitorResult(o: BatchExecution, w: World, w': World)
    requires AgreeOn(w, w', AllKinds)
    ensures ProvisionAndExecute(o, w') == ProvisionAndExecute(o, w)
  {
    PrepareAndUploadAgree(o, w, w');
    if PrepareAndUpload(o, w).outcome.Ok? {
      ExecuteJobAgree(o, w, w', UploadDependencies(o, w).outcome.value, UploadInputFiles(o, w, w.preparedInputs).outcome.value);
    }
  }

  /**
   A monitor timeout is not escalated: whether the bounded wait completes or
   times out, `StartBatch` issues the same calls, collects the same outputs
   and ends the same way.
   */
  lemma MonitorTimeoutIsNotEscalated(o: BatchExecution, w: World)
    ensures StartBatch(o, w.(monitorTimesOut := !w.monitorTimesOut)) == StartBatch(o, w)
  {
    var w' := w.(monitorTimesOut := !w.monitorTimesOut);
    CleanupAgree(o, w, w');
    ProvisionAndExecuteIgnoresMonitorResult(o, w, w');
  }
}

=== FILE: task_outputs.dfy ===
/**
 Error logging and task-output collection: `LogError`, the per-task retrieval
 `TryGetTaskOutput`, and the download loop that appends one output per task
 to the orchestrator's output list.
 */
module Logging {
  import opened Model

  /**
   Send `message` to the error log when one is attached. A write the log sink
   rejects is caught and reported on the console, so the step ends the same
   way whatever `w.fails` says about the write: it never throws.
   */
  function LogError(hasLog: bool, w: World, message: LogMessage): (r: Run<()>)
    ensures r.outcome == Ok(()) && r.collected == []
    ensures !hasLog ==> r.trace == []
    ensures hasLog ==> r.trace == [LogWrite(message)]
  {
    if !hasLog then Done(())
    else Run([LogWrite(message)], [], Ok(()))
  }
}

module TaskOutputs {
  import opened Model
  import opened Plan

  /** Fetching the task's standard output or standard error throws. */
  ghost predicate RetrievalFails(w: World, jobId: string, task: CloudTask)
  {
    w.fails(GetStdOut(jobId, task)) || w.fails(GetStdErr(jobId, task))
  }

  /** What a successful retrieval yields: the task's display name and its two line sequences. */
  function OutputOf(w: World, task: CloudTask): TaskOutput
  {
    TaskOutput(task.displayName, w.stdOut(task), w.stdErr(task))
  }

  /** Standard output is fetched before standard error; both must succeed. */
  function RetrievalPlan(jobId: string, task: CloudTask): seq<Step>
  {
    [Required(GetStdOut(jobId, task)), Required(GetStdErr(jobId, task))]
  }

  /** One retrieval per task, in task order. */
  function DownloadPlan(jobId: string, tasks: seq<CloudTask>): seq<Step>
  {
    if |tasks| == 0 then [] else RetrievalPlan(jobId, tasks[0]) + DownloadPlan(jobId, tasks[1..])
  }

  /**
   Fetch one task's output. On success the output carries the task's display
   name and both line sequences unchanged; on failure it is the `Empty`
   sentinel when `swallowExceptions` is set, and the failure is rethrown
   otherwise.
   */
  function TryGetTaskOutput(w: World, jobId: string, task: CloudTask, swallowExceptions: bool): (r: Run<TaskOutput>)
    ensures r.collected == []
    ensures r.trace == RunPlan(RetrievalPlan(jobId, task), w.fails).trace
    ensures !RetrievalFails(w, jobId, task) ==> r.outcome == Ok(OutputOf(w, task))
    ensures RetrievalFails(w, jobId, task) && swallowExceptions ==> r.outcome == Ok(Empty)
    ensures RetrievalFails(w, jobId, task) && !swallowExceptions ==>
              && r.outcome.Err? && RunPlan(RetrievalPlan(jobId, task), w.fails).outcome.Err?
              && r.outcome.error == RunPlan(RetrievalPlan(jobId, task), w.fails).outcome.error
  {
    var out := GetStdOut(jobId, task);
    var err := GetStdErr(jobId, task);
    if w.fails(out) then
      Run([out], [], if swallowExceptions then Ok(Empty) else Err(EffectFailed(out)))
    else if w.fails(err) then
      Run([out, err], [], if swallowExceptions then Ok(Empty) else Err(EffectFailed(err)))
    else
      assert RunPlan(RetrievalPlan(jobId, task)[1..][1..], w.fails) == Done(());
      Run([out, err], [], Ok(TaskOutput(task.displayName, w.stdOut(task), w.stdErr(task))))
  }

  /**
   Append one output per task, in task order, without swallowing: the first
   task whose retrieval fails aborts the loop, and the outputs appended before
   it stay appended.
   */
  function DownloadOutput(w: World, jobId: string, tasks: seq<CloudTask>): (r: Run<()>)
    ensures |r.collected| <= |tasks|
    ensures forall i :: 0 <= i < |r.collected| ==>
              !RetrievalFails(w, jobId, tasks[i]) && r.collected[i] == OutputOf(w, tasks[i])
    ensures r.outcome.Ok? <==> forall i :: 0 <= i < |tasks| ==> !RetrievalFails(w, jobId, tasks[i])
    ensures r.outcome.Ok? ==> |r.collected| == |tasks|
    ensures r.outcome.Err? ==> |r.collected| < |tasks| && RetrievalFails(w, jobId, tasks[|r.collected|])
    ensures OnlyKinds(r.trace, {Retrieve})
  {
    if |tasks| == 0 then Done(())
    else
      var t := TryGetTaskOutput(w, jobId, tasks[0], false);
      if t.outcome.Err? then Run(t.trace, [], Err(t.outcome.error))
      else
        var rest := DownloadOutput(w, jobId, tasks[1..]);
        assert forall i :: 1 <= i < |tasks| ==> tasks[i] == tasks[1..][i - 1];
        Run(t.trace + rest.trace, [t.outcome.value] + rest.collected, rest.outcome)
  }

  /** The download loop attempts exactly what its plan prescribes and fails exactly when the plan does. */
  lemma {:induction false} DownloadFollowsPlan(w: World, jobId: string, tasks: seq<CloudTask>)
    ensures DownloadOutput(w, jobId, tasks).trace == RunPlan(DownloadPlan(jobId, tasks), w.fails).trace
    ensures DownloadOutput(w, jobId, tasks).outcome == RunPlan(DownloadPlan(jobId, tasks), w.fails).outcome
  {
    if |tasks| > 0 {
      DownloadFollowsPlan(w, jobId, tasks[1..]);
      RunPlanAppend(RetrievalPlan(jobId, tasks[0]), DownloadPlan(jobId, tasks[1..]), w.fails);
    }
  }

  /** The download loop depends on which calls throw only through the output retrievals. */
  lemma {:induction false} DownloadOutputAgree(w: World, w': World, jobId: string, tasks: seq<CloudTask>)
    requires AgreeOn(w, w', {Retrieve})
    ensures DownloadOutput(w', jobId, tasks) == DownloadOutput(w, jobId, tasks)
  {
    if |tasks| > 0 {
      assert KindOf(GetStdOut(jobId, tasks[0])) == Retrieve;
      assert KindOf(GetStdErr(jobId, tasks[0])) == Retrieve;
      DownloadOutputAgree(w, w', jobId, tasks[1..]);
    }
  }
}
